=== FILE: README.md ===
# fakemachine backends in Dafny

fakemachine runs a build or test job inside a disposable virtual machine. This
project models the layer that picks a virtualisation backend and turns a
machine configuration into a launched guest. It has three parts:

- **Selection.** The registry maps a backend name to a backend. `"auto"` and
  `"kvm"` give the KVM backend. Every other name is rejected. A backend whose
  capability check fails is never returned.
- **Queries.** Each backend answers pure questions before boot: the guest path
  of a disk image, the required and init-time kernel modules, the module
  directory, static volumes, mount parameters, the networkd match glob, and the
  job-output terminal. Defaults shared by both backends (`baseBackend`) live in
  module `Base`.
- **`Start`.** The KVM backend builds the QEMU argument vector, launches the
  emulator and waits for it. The user-mode Linux (UML) backend does more:
  1. It creates a socket pair and wraps both ends as files.
  2. It starts the slirp network helper on one end.
  3. It starts the UML kernel on the other end and waits for it.
  4. Deferred calls close the files and kill the helper.

The backend interface is a closed sum type, `Backends.Backend`, with one
constructor per variant. Host facts are inputs, collected in `Config.Host`:
which paths `os.Stat` finds, the merged-`/usr` flag, the kernel release and
the kernel image path. The outcome of every system call in `Start` is also an
input, `Process.Outcomes`, so each failure can be chosen freely. `Start`
returns its exit code and error together with a trace of the effects it
performed (`Process.RunResult`). `Process.Balanced` replays that trace against
the set of held resources (socket ends and the helper process). It checks
three things:

- nothing is released twice or without having been acquired;
- every process is launched with its socket end still open;
- the guest is launched only while the helper runs (UML), and nothing is
  still held at the end.

Modules: `Results` (Option/Result/Outcome), `Decimal` (Go's `%d` and its
parser), `Text` (prefix/suffix, `strings.Join`, `*` globs), `Errors`,
`Config` (Machine, Image, MountPoint, Host, Probe), `Process` (traces and the
ownership discipline), `Base`, `Kvm`, `Uml`, `Backends`.

Two consequences of the code are worth stating up front:

- `"uml"` is not in the name table or the `newBackend` switch
  (backend.go:13, 29-36), so the UML backend cannot be selected
  (`Backends.UmlUnreachable`).
- `Start` closes a socket end only after `os.NewFile` has wrapped it
  (backend_uml.go:117-128); see Left out.

## Model

| member | source | states |
|---|---|---|
| Backends.BackendNames | backend.go:12-14 | The recognised names are exactly `"auto"` then `"kvm"`. `"uml"` is not among them. |
| Backends.NewBackend | backend.go:26-44 | Succeeds exactly for a recognised name on a host with `/dev/kvm`. It then returns the KVM backend for that machine, and that backend's capability check passes. An unrecognised name gives "does not exist" naming it. A recognised name on an unsupported host gives "not supported" wrapping the stat failure. |
| Backends.GetStaticBackend | backend.go:18-20 | Succeeds exactly for a recognised name on a host with `/dev/kvm`, and then gives the KVM backend bound to the zero machine. |
| Backends.NewBackendFromMachine | backend.go:22-24 | Succeeds exactly when the machine names a recognised backend and the host has `/dev/kvm`, and then gives the KVM backend bound to that machine. |
| Backends.AutoSelectsKvm | backend.go:29-33 | `"auto"` and `"kvm"` succeed or fail together, give the same backend, and its name is `"kvm"`. |
| Backends.UmlUnreachable | backend.go:29-36 | `"uml"` is rejected as unknown; no name yields the UML backend. |
| Backends.Name | backend.go:89-91 | The KVM variant is named `"kvm"` and the UML variant `"uml"`, and only they. |
| Backends.NewKvmBackend | backend_kvm.go:16-21 | Builds the KVM variant bound to the given machine. |
| Backends.NewUmlBackend | backend_uml.go:19-39 | Builds the UML variant bound to the given machine, with the paths that remain after the constructor's later assignments. |
| Backends.Supported | backend.go:49-51 | The KVM variant passes exactly when `/dev/kvm` exists. The UML variant passes exactly when both its kernel and its slirp helper exist. |
| Backends.MachineImagePath | backend.go:53-56 | KVM predicts the by-id directory followed by exactly the image label. UML predicts the by-path block-device directory followed by text that parses back to the index, and for a non-negative index the name of guest block device `index`. |
| Backends.RequiredModules | backend.go:58-59 | UML uses the empty default. KVM returns its eight module files, exactly `Kvm.RequiredModules`. |
| Base.RequiredModules | backend.go:93-95 | The default required-module list is empty. |
| Base.InitModules | backend.go:117-119 | The default init-module list is empty. |
| Base.StaticVolumes | backend.go:121-123 | The default static volumes are exactly the machine's own, unchanged. |
| Base.NetworkdMatch | backend.go:125-127 | The default glob `e*` matches exactly the interface names beginning with `e`. |
| Base.KernelModulesDir | backend.go:98-115 | Fails with the release-lookup error whenever the release is unknown, whether or not any directory exists. Otherwise it succeeds exactly when `<root>/<release>` exists, where root is `/usr/lib/modules` on merged-usr hosts and `/lib/modules` otherwise. A returned directory exists, begins with the root and ends with the release. A failure names a path that does not exist. |
| Backends.StaticVolumes | backend.go:121-123 | Both variants return the machine's static volumes unchanged as a prefix. KVM returns exactly them. UML adds exactly one more, its module volume. |
| Backends.MountParameters | backend.go:70-71 | KVM mounts shared folders as `9p` with the KVM options. UML mounts them as `hostfs` with the host directory as the only option. |
| Backends.NetworkdMatch | backend.go:73-74 | KVM keeps the default glob, matching exactly names beginning `e`. UML matches exactly names beginning `vec`. |
| Backends.OnlyUmlMatchesVectorInterface | backend.go:125-127 | The glob of a backend matches `vec0` if and only if it is the UML backend: the default glob does not cover the UML guest interface. |
| Backends.JobOutputTTY | backend.go:76-77 | When boot output is shown, job output goes to the shared console (`/dev/console` or `/dev/tty0`). Otherwise it goes to a dedicated device (`/dev/hvc0` or `/dev/tty1`). |
| Backends.KernelModulesDir | backend.go:61-62 | Neither variant ever reports a module directory that is absent on the host. KVM uses the default host lookup. UML succeeds exactly when its own tree exists. |
| Backends.InitModules | backend_kvm.go:45-47 | Every KVM init module is shipped by some required module file. The four KVM names are distinct, the virtio PCI transport is probed before the console and the 9p transport, and the 9p transport before the 9p filesystem. UML uses the empty default. |
| Backends.Start | backend.go:79-80 | KVM succeeds exactly when the kernel path is known, the emulator starts and the wait succeeds. UML succeeds exactly when all six steps succeed. A successful run has launched the guest. Success returns the guest's exit code, and any failure returns -1. The run ends holding nothing it acquired. |
| Backends.PredictionMatchesLaunch | backend.go:53-56 | The predicted image path equals the path derived from what the launch attaches for that disk. For KVM that is the by-id path of the serial after `serial=`. For UML it is the by-path name of block device `ubd<i>`. For UML the two agree if and only if the image's index equals its list position. |
| Kvm.Supported | backend_kvm.go:23-28 | Probes only `/dev/kvm`. Passes exactly when it exists; otherwise fails with that stat error. |
| Kvm.MachineImagePath | backend_kvm.go:30-32 | The path is the by-id virtio directory followed by exactly the image label. |
| Kvm.ModuleFile | backend_kvm.go:34-43 | Each required module is named as a directory and module name, and its path lies under `kernel/` and ends in `.ko`. |
| Kvm.RequiredModules | backend_kvm.go:34-43 | The initrd carries eight module files. |
| Kvm.InitModules | backend_kvm.go:45-47 | Four distinct names from virtio_pci, virtio_console, 9pnet_virtio and 9p. virtio_pci comes before virtio_console and 9pnet_virtio, and 9pnet_virtio comes before 9p. |
| Kvm.InitModulesAreRequired | backend_kvm.go:34-47 | Each of the four init modules is shipped by a file in the required list. |
| Kvm.MountParametersIgnoreMountPoint | backend_kvm.go:49-53 | The 9p mount parameters are the same whatever mount point is passed. |
| Kvm.MountParameters | backend_kvm.go:49-53 | Filesystem type `9p` with four options, including the virtio transport and loose caching. |
| Kvm.JobOutputTTY | backend_kvm.go:55-66 | `/dev/console` exactly when boot output is shown, `/dev/hvc0` exactly when it is not. |
| Kvm.KernelCommandLine | backend_kvm.go:86-87 | The space-joined kernel arguments, which begin by selecting `ttyS0` as console. |
| Kvm.MountArgs | backend_kvm.go:113-117 | Two arguments per mount point in list order: `-virtfs`, then that mount's tag and host path. |
| Kvm.ImageArgs | backend_kvm.go:119-125 | Four arguments per image in list order: `-drive` with position-numbered drive, then `-device` with that image's label. |
| Kvm.Argv | backend_kvm.go:77-127 | Definition only. Its layout is stated by `Kvm.ArgvHead`, `Kvm.ArgvMounts`, `Kvm.ArgvImages` and `Kvm.ArgvTail`. |
| Kvm.ConsoleArgs | backend_kvm.go:89-111 | Definition only. Its wiring is stated by `Kvm.ConsoleMatchesJobOutput`. |
| Kvm.ArgvHead | backend_kvm.go:77-111 | The argv begins with the 15 fixed arguments, followed directly by the console wiring, and its length is one for every fixed and console argument, two per mount, four per image and two closing arguments. |
| Kvm.ArgvMounts | backend_kvm.go:113-117 | Mount `j` appears at its fixed offset as `-virtfs` and its argument. |
| Kvm.ArgvImages | backend_kvm.go:119-125 | Image `i` appears at its fixed offset as `-drive`, its drive argument, `-device`, its device argument. |
| Kvm.ArgvTail | backend_kvm.go:127 | The last two arguments are `-append` and the kernel command line. |
| Kvm.ArgvCarriesConfiguration | backend_kvm.go:75-85 | `-smp` and `-m` are followed by text that parses back to the configured vCPU count and memory. `-kernel` and `-initrd` are followed by the kernel and initrd paths. |
| Kvm.DriveIdsDistinct | backend_kvm.go:119-125 | Two images get the same drive identifier only if they are at the same position. |
| Kvm.ImagePathMatchesLaunch | backend_kvm.go:119-125 | Image `i`'s drive names its file and its own drive id. Its device refers to that drive. The serial after the device's `serial=` key is exactly what `MachineImagePath` puts under the by-id directory. |
| Kvm.ConsoleMatchesJobOutput | backend_kvm.go:55-111 | When showing boot, the console arguments pair stdio with the serial port, the kernel command line makes `ttyS0` the console, and jobs write to `/dev/console`. When quiet, the serial port is nulled, stdio backs virtio console `hvc0`, and jobs write to `/dev/hvc0`. |
| Kvm.Start | backend_kvm.go:68-145 | An unknown kernel path gives -1 and launches nothing. A launch failure gives -1 and launches nothing. Once the kernel path is known and the launch succeeds, the first effect is starting the emulator with the assembled argv and the supervisor's stdio. A wait failure then gives -1. Otherwise the run has waited for the emulator and returns its exit code. No other process is started. |
| Uml.Supported | backend_uml.go:41-51 | A missing kernel gives "user-mode-linux not installed" and the helper is not probed. A missing helper (kernel present) gives "slirp-helper not installed". It passes exactly when both exist. |
| Uml.MachineImagePath | backend_uml.go:53-55 | The path is the by-path UML block-device prefix followed by the index written in canonical decimal: no leading zeros, and no `-0`. That text parses back to the index. For a non-negative index the path is the name the guest gives block device number `index`. |
| Uml.RequiredModules | backend_uml.go:57-60 | No modules are required. |
| Uml.KernelModulesDir | backend_uml.go:62-68 | Returns the backend's module tree exactly when it exists, otherwise a not-found error for it. |
| Uml.StaticVolumes | backend_uml.go:70-76 | The machine's static volumes unchanged, then exactly one more: the module tree mounted static at `/lib/modules`, labelled `modules`. |
| Uml.ModuleTreeIsMounted | backend_uml.go:62-86 | The module directory the backend reports is the one its last static volume mounts over `/lib/modules`, and that volume's hostfs mount names the same directory. |
| Uml.NetworkMatchCoversGuestInterface | backend_uml.go:78-80 | The UML glob matches exactly names starting `vec`, including `vec0`, the interface the guest's network argument creates. |
| Uml.MountParameters | backend_uml.go:82-86 | Filesystem type `hostfs` with the host directory as the single option. |
| Uml.NetworkdMatch | backend_uml.go:78-80 | The glob `vec*` matches exactly the interface names beginning with `vec`. |
| Uml.JobOutputTTY | backend_uml.go:88-94 | `/dev/tty0` exactly when boot output is shown, `/dev/tty1` exactly when it is not. |
| Uml.ArgvLayout | backend_uml.go:147-215 | The argv is the 8-argument fixed prefix, then the console wiring, then one argument per image in list order. |
| Uml.ArgvCarriesConfiguration | backend_uml.go:147-155 | The `mem=…M` argument parses back to the configured memory. The initrd argument names the configured initrd. |
| Uml.ConsoleArgsWireStdio | backend_uml.go:171-205 | The console arguments join terminal 0 (boot shown) or 1 (quiet) to stdio, and that terminal only. Other consoles are disabled. Quiet mode adds `quiet` and nulls terminal 0. |
| Uml.ConsoleMatchesJobOutput | backend_uml.go:88-205 | The terminal the console arguments join to stdio is the one in the job-output device. |
| Uml.UbdArgs | backend_uml.go:213-215 | One `ubd<i>=<path>` argument per image, named by list position, in list order. |
| Uml.Argv | backend_uml.go:149-215 | Definition only. Its layout is stated by `Uml.ArgvLayout`, `Uml.ArgvCarriesConfiguration` and `Uml.ImagePathMatchesLaunch`. |
| Uml.ConsoleArgs | backend_uml.go:171-205 | Definition only. Its wiring is stated by `Uml.ConsoleArgsWireStdio` and `Uml.ConsoleMatchesJobOutput`. |
| Uml.ImagePathMatchesLaunch | backend_uml.go:213-215 | Image `i` is attached as `ubd<i>`. The prediction names the guest's device `i` if and only if the image's index is `i`. |
| Uml.DescriptorsAgree | backend_uml.go:132-227 | The helper gets `--fd=3` and has f1 as file 3. The guest's network argument says `fd=3` and the guest has f2 as file 3. These are opposite ends of the pair. |
| Uml.Start | backend_uml.go:96-239 | Each step's failure returns -1 with that step's error: socket pair, f1, f2, helper start, guest start, wait. A failed socket pair leaves no effects. Once the helper start succeeds, the trace launches the helper with its fixed request. Once the guest start succeeds, it also launches the guest with the assembled argv. Success returns the guest's exit code. |
| Uml.Run | backend_uml.go:111-239 | The same error, exit-code and launch outcomes for any helper and guest launch requests. A failed start names the executable that could not be started. |
| Uml.RunTrace | backend_uml.go:111-143 | The exact effects for each point of failure, in order: socket pair, wrap f1, wrap f2, helper start, guest start, wait. Then the deferred calls run last-in-first-out: kill the helper, close f2, close f1, each only if registered. |
| Uml.StartIsBalanced | backend_uml.go:111-143 | For every combination of step outcomes, all acquired resources are released exactly once. Each process starts while its socket end is open, and the guest starts while the helper runs. |
| Uml.RunIsBalanced | backend_uml.go:111-143 | The same cleanup guarantee for any helper and guest launch requests that carry socket ends 0 and 1 as their fourth descriptor. |
| Uml.StartReleases | backend_uml.go:117-143 | f1 is closed exactly when it was wrapped. f2 is closed exactly when it was wrapped. The helper is killed exactly when it was started. |
| Uml.RunReleases | backend_uml.go:117-143 | The same release facts for any launch requests. |
| Uml.StartLaunches | backend_uml.go:132-139 | Every process `Start` launches is the helper or the guest with their fixed argv and descriptor lists. |
| Uml.HelperStartsBeforeGuest | backend_uml.go:139-227 | Whenever the guest is started, the helper was started earlier in the same run. |
| Process.AcquiredIsReleased | backend_uml.go:117-143 | In a balanced run, every acquisition is followed later by the release of the same resource. |
| Decimal.ParseIntToString | backend_kvm.go:75-76 | The `%d` rendering of any integer parses back to that integer. |
| Decimal.NatToString | backend_kvm.go:121-124 | `%d` of a position: a non-empty digit string, one digit exactly below ten, starting with `0` only for zero. |
| Decimal.IntToString | backend_uml.go:54 | `%d` writes the number in canonical form: a minus sign exactly for negative values, and digits without leading zeros. |
| Decimal.CanonicalIsRendering | backend_uml.go:54 | Every canonical numeral is the `%d` rendering of the value it parses to, so each number has exactly one `%d` text. |

## Left out

- Real system calls are not modelled: `os.Stat`, `os.StartProcess`, `Process.Wait`, `syscall.Socketpair` and `os.NewFile`. Their answers are inputs (`Config.Host`, `Process.Outcomes`).
- `hostKernelPath`, `hostKernelRelease`, `mergedUsrSystem` and `Machine.staticVolumes` are not part of this model. They are defined in files not covered here, and their results are inputs.
- The paths set in `newUmlBackend` are constants (`Uml.DefaultPaths`): the values that remain after the later assignments overwrite the packaged locations. Every proof holds for any `Uml.Paths`.
- Error text is not modelled. Each `fmt.Errorf` message and OS error is an `Errors.Error` constructor carrying the same information (the name, the wrapped cause, the path).
- `path.Join` is modelled as `dir + "/" + elem`, without Go's cleaning of `..`, doubled slashes or empty elements.
- Exit codes are not interpreted. The wait outcome supplies the code, and `ExitCode()`'s -1 for a signal-killed process is not distinguished.
- `--exit-with-parent`, signal delivery and orphaned processes are runtime OS behaviour and are not modelled.
- After a successful wait, the guest process needs no cleanup. After a failed wait, the Go code does not kill it. So the guest is not a tracked resource.
- `Uml.StartIsBalanced` tracks files only once `os.NewFile` has wrapped them. If wrapping f1 fails, the Go code returns without closing the raw descriptor of the other end. `os.NewFile` fails only for a negative descriptor, which a successful socket pair does not return.
- Globs are modelled with `*` as the only wildcard. networkd's `?` and `[...]` are not used by either backend.
- Machine memory and vCPU count are unbounded integers. `%d` is modelled for every value, negative ones included.
- Backends.PredictionMatchesLaunch: the naming done inside the guest is assumed, not derived from the Go code. For KVM, udev is assumed to name a virtio disk `/dev/disk/by-id/virtio-<serial>` using the whole serial. For UML, block device `ubd<i>` is assumed to appear as `/dev/disk/by-path/platform-uml-blkdev.<i>`. QEMU splits `-device` options at commas, and virtio-blk passes at most 20 bytes of serial to the guest. So for a label containing `,` or longer than 20 bytes, the KVM guest path differs from the prediction.
- Kvm.InitModules: the contract fixes the four names and the transport-first order, which still allows three arrangements. The exact order (virtio_pci, virtio_console, 9pnet_virtio, 9p) is the function's definition.
- Backends.InitModules: states the same KVM facts as `Kvm.InitModules`, so the exact KVM order is likewise only in the definition.
- Kvm.RequiredModules: the contract states only the count. The exact eight paths and their order are the function's definition. The shape of each path is `Kvm.ModuleFile`.
- Kvm.MountParameters: the contract names the type and two of the four options. The exact option list is the function's definition, and its independence from the mount point is `Kvm.MountParametersIgnoreMountPoint`.
- Backends.JobOutputTTY: the cross-variant contract only says which pair of device names each mode uses. The exact device per variant is in `Kvm.JobOutputTTY` and `Uml.JobOutputTTY`.

=== FILE: backend.dfy ===
/**
  The backend contract as a closed sum of the two variants, the name
  registry, and the selector that hands out only supported backends
  (backend.go).
 */
module Backends {
  import opened Results
  import opened Errors
  import opened Config
  import opened Text
  import opened Process
  import opened Decimal
  import Base
  import Kvm
  import Uml

  /** A backend bound to the machine it was constructed around. */
  datatype Backend = KvmBackend(machine: Machine) | UmlBackend(machine: Machine, paths: Uml.Paths)

  /** The names the selector recognises, in order; the UML backend is not among them. */
  function BackendNames(): (r: seq<string>)
    ensures |r| == 2 && r[0] == "auto" && r[1] == Kvm.Name
    ensures Uml.Name !in r
  {
    ["auto", "kvm"]
  }

  /** `newKvmBackend`: the KVM variant bound to the machine. */
  function NewKvmBackend(m: Machine): (r: Backend)
    ensures r.KvmBackend? && r.machine == m
  {
    KvmBackend(m)
  }

  /** `newUmlBackend`: the UML variant bound to the machine, with the paths the constructor leaves in place. */
  function NewUmlBackend(m: Machine): (r: Backend)
    ensures r.UmlBackend? && r.machine == m && r.paths == Uml.DefaultPaths
  {
    UmlBackend(m, Uml.DefaultPaths)
  }

  function Name(b: Backend): (r: string)
    ensures b.KvmBackend? <==> r == "kvm"
    ensures b.UmlBackend? <==> r == "uml"
  {
    match b
    case KvmBackend(_) => Kvm.Name
    case UmlBackend(_, _) => Uml.Name
  }

  /** The capability check of the variant: the KVM device node, or the UML kernel and helper binaries. */
  function Supported(b: Backend, host: Host): (r: Probe)
    ensures b.KvmBackend? ==> (r.verdict.Pass? <==> Kvm.DeviceNode in host.existing)
    ensures b.UmlBackend? ==>
      (r.verdict.Pass? <==> b.paths.kernelPath in host.existing && b.paths.slirpHelperPath in host.existing)
  {
    match b
    case KvmBackend(_) => Kvm.Supported(host)
    case UmlBackend(_, paths) => Uml.Supported(paths, host)
  }

  /**
    Selection: "auto" and "kvm" build the KVM backend; every other name,
    "uml" included, is rejected before anything is built. A built backend
    whose capability check fails is not returned.
   */
  function NewBackend(name: string, m: Machine, host: Host): (r: Result<Backend, Error>)
    ensures r.Ok? <==> name in BackendNames() && Kvm.DeviceNode in host.existing
    ensures r.Ok? ==> r.value == NewKvmBackend(m) && Supported(r.value, host).verdict.Pass?
    ensures name !in BackendNames() ==> r == Err(UnknownBackend(name))
    ensures name in BackendNames() && Kvm.DeviceNode !in host.existing ==>
      r == Err(Unsupported(name, NotFound(Kvm.DeviceNode)))
  {
    if name == "auto" || name == "kvm" then
      var b := NewKvmBackend(m);
      match Supported(b, host).verdict
      case Fail(cause) => Err(Unsupported(name, cause))
      case Pass => Ok(b)
    else Err(UnknownBackend(name))
  }

  /** A backend for capability checks only, built around the zero machine. */
  function GetStaticBackend(name: string, host: Host): (r: Result<Backend, Error>)
    ensures r.Ok? <==> name in BackendNames() && Kvm.DeviceNode in host.existing
    ensures r.Ok? ==> r.value == KvmBackend(ZeroMachine)
  {
    NewBackend(name, ZeroMachine, host)
  }

  /** The backend the machine's own configuration names. */
  function NewBackendFromMachine(m: Machine, host: Host): (r: Result<Backend, Error>)
    ensures r.Ok? <==> m.backendName in BackendNames() && Kvm.DeviceNode in host.existing
    ensures r.Ok? ==> r.value == KvmBackend(m)
  {
    NewBackend(m.backendName, m, host)
  }

  /** "auto" and "kvm" select the same backend, named "kvm", and fail alike. */
  lemma AutoSelectsKvm(m: Machine, host: Host)
    ensures NewBackend("auto", m, host).Ok? <==> NewBackend("kvm", m, host).Ok?
    ensures NewBackend("auto", m, host).Ok? ==>
      NewBackend("auto", m, host).value == NewBackend("kvm", m, host).value
      && Name(NewBackend("auto", m, host).value) == "kvm"
  {
  }

  /** The UML backend cannot be obtained by name: the selector never returns it. */
  lemma UmlUnreachable(name: string, m: Machine, host: Host)
    ensures NewBackend("uml", m, host) == Err(UnknownBackend("uml"))
    ensures NewBackend(name, m, host).Ok? ==> !NewBackend(name, m, host).value.UmlBackend?
  {
  }

  /** The predicted guest path: under the by-id directory named by label (KVM) or under the by-path directory numbered by index (UML). */
  function MachineImagePath(b: Backend, img: Image): (r: string)
    ensures b.KvmBackend? ==> StartsWith(r, Kvm.DiskByIdPrefix) && r[|Kvm.DiskByIdPrefix|..] == img.tag
    ensures b.UmlBackend? ==> StartsWith(r, Uml.DiskByPathPrefix)
    ensures b.UmlBackend? && img.index >= 0 ==> r == Uml.GuestUbdPath(img.index)
    ensures b.UmlBackend? ==> ParseInt(r[|Uml.DiskByPathPrefix|..]) == Some(img.index)
  {
    match b
    case KvmBackend(_) => Kvm.MachineImagePath(img)
    case UmlBackend(_, _) => Uml.MachineImagePath(img)
  }

  function RequiredModules(b: Backend): (r: seq<string>)
    ensures b.UmlBackend? ==> r == Base.RequiredModules()
    ensures b.KvmBackend? ==> |r| == 8 && r == Kvm.RequiredModules()
  {
    match b
    case KvmBackend(_) => Kvm.RequiredModules()
    case UmlBackend(_, _) => Uml.RequiredModules()
  }

  /** Both variants only ever report a module directory that exists on the host. */
  function KernelModulesDir(b: Backend, host: Host): (r: Result<string, Error>)
    ensures r.Ok? ==> r.value in host.existing
    ensures b.UmlBackend? ==> (r.Ok? <==> b.paths.moduleDir in host.existing)
    ensures b.KvmBackend? ==> r == Base.KernelModulesDir(host)
  {
    match b
    case KvmBackend(_) => Base.KernelModulesDir(host)
    case UmlBackend(_, paths) => Uml.KernelModulesDir(paths, host)
  }

  /**
    Modules the init script probes; each is shipped by a required module
    file, and the KVM order puts each transport before what depends on it.
   */
  function InitModules(b: Backend): (r: seq<string>)
    ensures b.UmlBackend? ==> r == Base.InitModules()
    ensures b.KvmBackend? ==> forall k :: 0 <= k < |r| ==> Kvm.Shipped(r[k])
    ensures b.KvmBackend? ==> |r| == 4 && Distinct(r)
    ensures b.KvmBackend? ==> Precedes(r, "virtio_pci", "virtio_console") && Precedes(r, "virtio_pci", "9pnet_virtio")
    ensures b.KvmBackend? ==> Precedes(r, "9pnet_virtio", "9p")
  {
    match b
    case KvmBackend(_) => Kvm.InitModulesAreRequired(); Kvm.InitModules()
    case UmlBackend(_, _) => Base.InitModules()
  }

  /** Static volumes always begin with the machine's own, unchanged. */
  function StaticVolumes(b: Backend): (r: seq<MountPoint>)
    ensures |b.machine.staticVolumes| <= |r| && r[..|b.machine.staticVolumes|] == b.machine.staticVolumes
    ensures b.KvmBackend? ==> r == b.machine.staticVolumes
    ensures b.UmlBackend? ==> |r| == |b.machine.staticVolumes| + 1 && r[|r| - 1] == Uml.ModuleVolume(b.paths)
  {
    match b
    case KvmBackend(m) => Base.StaticVolumes(m)
    case UmlBackend(m, paths) => Uml.StaticVolumes(m, paths)
  }

  /** How a shared folder is mounted: 9p for KVM, hostfs naming the host directory for UML. */
  function MountParameters(b: Backend, mount: MountPoint): (r: (string, seq<string>))
    ensures b.KvmBackend? ==> r.0 == "9p" && r == Kvm.MountParameters(mount)
    ensures b.UmlBackend? ==> r.0 == "hostfs" && r.1 == [mount.hostDirectory]
  {
    match b
    case KvmBackend(_) => Kvm.MountParameters(mount)
    case UmlBackend(_, _) => Uml.MountParameters(mount)
  }

  /** The networkd glob: Ethernet-style names for KVM, the vector devices for UML. */
  function NetworkdMatch(b: Backend): (r: string)
    ensures b.KvmBackend? ==> forall name :: GlobMatch(r, name) <==> StartsWith(name, "e")
    ensures b.UmlBackend? ==> forall name :: GlobMatch(r, name) <==> StartsWith(name, "vec")
  {
    match b
    case KvmBackend(_) => Base.NetworkdMatch()
    case UmlBackend(_, _) => Uml.NetworkdMatch()
  }

  /**
    Only the UML glob matches the guest interface `vec0` that the UML
    network argument creates; the default glob the KVM backend keeps does not.
   */
  lemma OnlyUmlMatchesVectorInterface(b: Backend)
    ensures GlobMatch(NetworkdMatch(b), "vec0") <==> b.UmlBackend?
  {
    assert StartsWith("vec0", "vec");
    assert "vec0"[0] == 'v' && "e"[0] == 'e';
    assert "vec0"[..1][0] != "e"[0];
  }

  /** Job output follows the boot-visibility flag, in each variant's own device names. */
  function JobOutputTTY(b: Backend): (r: string)
    ensures b.machine.showBoot ==> r in {"/dev/console", "/dev/tty0"}
    ensures !b.machine.showBoot ==> r in {"/dev/hvc0", "/dev/tty1"}
  {
    match b
    case KvmBackend(m) => Kvm.JobOutputTTY(m)
    case UmlBackend(m, _) => Uml.JobOutputTTY(m)
  }

  /**
    Running the guest: the exit code is the guest's when no step failed and
    -1 otherwise, and the run ends holding nothing it acquired.
   */
  function Start(b: Backend, host: Host, o: Outcomes): (r: RunResult)
    ensures r.err.None? ==> o.startGuest && o.wait.Some? && r.exitCode == o.wait.value
    ensures b.KvmBackend? ==> (r.err.None? <==> host.kernelPath.Some? && o.startGuest && o.wait.Some?)
    ensures b.UmlBackend? ==>
      (r.err.None? <==> o.socketpair && o.wrapF1 && o.wrapF2 && o.startHelper && o.startGuest && o.wait.Some?)
    ensures r.err.Some? ==> r.exitCode == -1
    ensures r.err.None? ==> exists k :: 0 <= k < |r.trace| && r.trace[k].Started? && r.trace[k].proc == Guest
    ensures Balanced(r.trace, b.UmlBackend?)
  {
    match b
    case KvmBackend(m) => Kvm.Start(m, host, o)
    case UmlBackend(m, paths) => Uml.StartIsBalanced(m, paths, o); Uml.Start(m, paths, o)
  }

  /**
    The guest-visible path of the disk launched at position `i`, under the
    guest's naming rules: udev's by-id name from the serial after `serial=`
    (KVM), or the by-path name of block device `ubd<i>` (UML).
   */
  function LaunchedDevicePath(b: Backend, kernelPath: string, i: nat): string
    requires i < |b.machine.images|
  {
    match b
    case KvmBackend(m) =>
      Kvm.ImagePathMatchesLaunch(m, kernelPath, i);
      var device := Kvm.Argv(m, kernelPath)[Kvm.ImagesAt(m) + 4 * i + 3];
      Kvm.DiskByIdPrefix + device[|Kvm.SerialPrefix(i)|..]
    case UmlBackend(m, _) => Uml.GuestUbdPath(i)
  }

  /**
    The prediction invariant: the path the image-path query returns before
    boot is the path the guest sees for that disk once launched. The UML
    prediction uses the image's index while the launch numbers disks by
    position, so there it holds exactly when the two agree.
   */
  lemma PredictionMatchesLaunch(b: Backend, kernelPath: string, i: nat)
    requires i < |b.machine.images|
    ensures b.KvmBackend? ==> MachineImagePath(b, b.machine.images[i]) == LaunchedDevicePath(b, kernelPath, i)
    ensures b.UmlBackend? ==>
      (MachineImagePath(b, b.machine.images[i]) == LaunchedDevicePath(b, kernelPath, i) <==> b.machine.images[i].index == i)
  {
    match b
    case KvmBackend(m) => Kvm.ImagePathMatchesLaunch(m, kernelPath, i);
    case UmlBackend(m, _) => Uml.ImagePathMatchesLaunch(m, i);
  }
}

=== FILE: base.dfy ===
/**
  The defaults every backend inherits unless it overrides them (`baseBackend`
  in backend.go).
 */
module Base {
  import opened Results
  import opened Errors
  import opened Config
  import opened Text

  function RequiredModules(): (r: seq<string>)
    ensures |r| == 0
  {
    []
  }

  function InitModules(): (r: seq<string>)
    ensures |r| == 0
  {
    []
  }

  /** Default networkd match: exactly the interface names that begin with `e`, the Ethernet-style ones. */
  function NetworkdMatch(): (r: string)
    ensures forall name :: GlobMatch(r, name) <==> StartsWith(name, "e")
  {
    PrefixGlobAll("e");
    assert "e" + "*" == "e*";
    "e*"
  }

  function StaticVolumes(m: Machine): (r: seq<MountPoint>)
    ensures r == m.staticVolumes
  {
    m.staticVolumes
  }

  /** Root of the host's module trees: under `/usr` on a merged-usr system. */
  function ModulesRoot(host: Host): (r: string)
    ensures host.mergedUsr ==> r == "/usr/lib/modules"
    ensures !host.mergedUsr ==> r == "/lib/modules"
  {
    if host.mergedUsr then "/usr/lib/modules" else "/lib/modules"
  }

  /** `path.Join` of a directory and one element, without further normalisation. */
  function JoinPath(dir: string, elem: string): string {
    dir + "/" + elem
  }

  /**
    The host's module directory for the running kernel. The release lookup is
    made before the directory is probed, so its failure wins; a directory that
    does not exist is never returned.
   */
  function KernelModulesDir(host: Host): (r: Result<string, Error>)
    ensures host.kernelRelease.None? ==> r == Err(KernelReleaseUnknown)
    ensures r.Ok? ==> r.value in host.existing
    ensures r.Ok? <==> host.kernelRelease.Some? && JoinPath(ModulesRoot(host), host.kernelRelease.value) in host.existing
    ensures r.Ok? ==>
      StartsWith(r.value, ModulesRoot(host) + "/") && r.value[|ModulesRoot(host)| + 1..] == host.kernelRelease.value
    ensures r.Err? && host.kernelRelease.Some? ==> r.error.NotFound? && r.error.path !in host.existing
  {
    var root := ModulesRoot(host);
    match host.kernelRelease
    case None => Err(KernelReleaseUnknown)
    case Some(release) =>
      var dir := JoinPath(root, release);
      if dir in host.existing then Ok(dir) else Err(NotFound(dir))
  }
}

=== FILE: config.dfy ===
/**
  The configuration a backend is built around, and the host facts the backends
  probe. Both are read-only inputs: the backend never changes them.
 */
module Config {
  import opened Results
  import opened Errors

  /**
    One virtual disk: a host file, its label and its index. The label is
    called `tag` because `label` is a Dafny keyword.
   */
  datatype Image = Image(path: string, tag: string, index: int)

  /** A host directory shared into the guest under a label (`tag`); static mounts (`isStatic`) are always present. */
  datatype MountPoint = MountPoint(hostDirectory: string, machineDirectory: string, tag: string, isStatic: bool)

  /**
    The machine configuration. `staticVolumes` stands for the value of
    `Machine.staticVolumes()`, which is computed outside the backends and is
    therefore an input here.
   */
  datatype Machine = Machine(
    backendName: string,
    memory: int,
    numcpus: int,
    showBoot: bool,
    initrdPath: string,
    images: seq<Image>,
    mounts: seq<MountPoint>,
    staticVolumes: seq<MountPoint>)

  /** Go's zero value `Machine{}`, used for capability-only lookups. */
  const ZeroMachine := Machine("", 0, 0, false, "", [], [], [])

  /**
    What the host answers when probed: the paths `os.Stat` finds, whether `/usr`
    is merged, the running kernel's release and the kernel image path (either
    lookup may fail).
   */
  datatype Host = Host(
    existing: set<string>,
    mergedUsr: bool,
    kernelRelease: Option<string>,
    kernelPath: Option<string>)

  /** The paths a capability check passed to `os.Stat`, in order, and its verdict. */
  datatype Probe = Probe(probed: seq<string>, verdict: Outcome<Error>)
}

=== FILE: decimal.dfy ===
/**
  Decimal rendering of integers as Go's `%d` verb prints them (optional minus
  sign, no leading zeros), and the parser that reads such a rendering back.
  The parser is the partner of the renderer: every argument the backends build
  with `%d` reads back as the number that was formatted.
 */
module Decimal {
  import opened Results

  predicate IsDigit(c: char) {
    '0' <= c <= '9'
  }

  predicate AllDigits(s: string) {
    forall i :: 0 <= i < |s| ==> IsDigit(s[i])
  }

  function DigitValue(c: char): (d: nat)
    requires IsDigit(c)
    ensures d < 10
  {
    c as int - '0' as int
  }

  function DigitChar(d: nat): (c: char)
    requires d < 10
    ensures IsDigit(c) && DigitValue(c) == d
  {
    ('0' as int + d) as char
  }

  /** Decimal digits of `n`, most significant first. */
  function NatToString(n: nat): (s: string)
    ensures 1 <= |s| && AllDigits(s)
    ensures |s| == 1 <==> n < 10
    ensures s[0] == '0' <==> n == 0
    decreases n
  {
    if n < 10 then [DigitChar(n)] else NatToString(n / 10) + [DigitChar(n % 10)]
  }

  /** A digit string without leading zeros: `0` itself, or digits starting with `1`-`9`. */
  predicate CanonicalDigits(d: string) {
    1 <= |d| && AllDigits(d) && (d[0] == '0' ==> |d| == 1)
  }

  /** The one way `%d` writes a number: canonical digits, after a minus sign only for a non-zero value. */
  predicate Canonical(s: string) {
    if 1 <= |s| && s[0] == '-' then CanonicalDigits(s[1..]) && s[1] != '0'
    else CanonicalDigits(s)
  }

  /** `%d` on a Go `int`: a minus sign before the magnitude when negative. */
  function IntToString(i: int): (s: string)
    ensures 1 <= |s|
    ensures s[0] == '-' <==> i < 0
    ensures i >= 0 ==> AllDigits(s)
    ensures Canonical(s)
  {
    if i < 0 then
      var t := NatToString(-i);
      assert ("-" + t)[1..] == t;
      "-" + t
    else NatToString(i)
  }

  /** Value of a digit string (the empty string reads as zero). */
  function ParseDigits(s: string): nat
    requires AllDigits(s)
    decreases |s|
  {
    if |s| == 0 then 0 else 10 * ParseDigits(s[..|s| - 1]) + DigitValue(s[|s| - 1])
  }

  /** Reads a non-empty digit string; anything else is rejected. */
  function ParseNat(s: string): (r: Option<nat>)
    ensures r.Some? <==> 1 <= |s| && AllDigits(s)
  {
    if 1 <= |s| && AllDigits(s) then Some(ParseDigits(s)) else None
  }

  /** Reads a decimal integer with an optional leading minus sign. */
  function ParseInt(s: string): (r: Option<int>)
    ensures r.Some? <==> (1 <= |s| && AllDigits(s)) || (2 <= |s| && s[0] == '-' && AllDigits(s[1..]))
  {
    if 2 <= |s| && s[0] == '-' && AllDigits(s[1..]) then Some(-(ParseDigits(s[1..]) as int))
    else if 1 <= |s| && AllDigits(s) then Some(ParseDigits(s))
    else None
  }

  lemma {:induction false} ParseDigitsOfNatToString(n: nat)
    ensures ParseDigits(NatToString(n)) == n
    decreases n
  {
    var s := NatToString(n);
    if n >= 10 {
      ParseDigitsOfNatToString(n / 10);
      assert s[..|s| - 1] == NatToString(n / 10);
      assert s[|s| - 1] == DigitChar(n % 10);
    }
  }

  /** Round trip: the parser reads back exactly the number that was rendered. */
  lemma ParseNatToString(n: nat)
    ensures ParseNat(NatToString(n)) == Some(n)
  {
    ParseDigitsOfNatToString(n);
  }

  /** Round trip for signed values, as `%d` prints a Go `int`. */
  lemma ParseIntToString(i: int)
    ensures ParseInt(IntToString(i)) == Some(i)
  {
    var s := IntToString(i);
    if i < 0 {
      var t := NatToString(-i);
      assert s == "-" + t;
      assert s[1..] == t;
      ParseDigitsOfNatToString(-i);
      assert ParseInt(s) == Some(-(ParseDigits(t) as int));
    } else {
      assert s == NatToString(i);
      assert IsDigit(s[0]);
      ParseDigitsOfNatToString(i);
      assert ParseInt(s) == Some(ParseDigits(s) as int);
    }
  }

  /** Digits that do not start with `0` have a positive value. */
  lemma {:induction false} LeadingDigitPositive(d: string)
    requires 1 <= |d| && AllDigits(d) && d[0] != '0'
    ensures ParseDigits(d) >= 1
    decreases |d|
  {
    if |d| > 1 {
      LeadingDigitPositive(d[..|d| - 1]);
    } else {
      assert d[..0] == [];
    }
  }

  /** Canonical digits are exactly the rendering of their value. */
  lemma {:induction false} NatToStringOfCanonical(d: string)
    requires CanonicalDigits(d)
    ensures NatToString(ParseDigits(d)) == d
    decreases |d|
  {
    var n := ParseDigits(d);
    if |d| == 1 {
      assert d[..0] == [];
      assert ParseDigits(d[..0]) == 0;
      assert n == DigitValue(d[0]);
      assert [DigitChar(n)] == d;
    } else {
      var front := d[..|d| - 1];
      LeadingDigitPositive(front);
      NatToStringOfCanonical(front);
      assert n / 10 == ParseDigits(front) && n % 10 == DigitValue(d[|d| - 1]);
      assert d == front + [d[|d| - 1]];
    }
  }

  /**
    The converse of the round trip: every canonical numeral is the `%d`
    rendering of the value it parses to, so `%d` text is unique.
   */
  lemma CanonicalIsRendering(s: string)
    requires Canonical(s)
    ensures ParseInt(s).Some? && IntToString(ParseInt(s).value) == s
  {
    if 1 <= |s| && s[0] == '-' {
      var d := s[1..];
      LeadingDigitPositive(d);
      NatToStringOfCanonical(d);
      assert s == "-" + d;
    } else {
      NatToStringOfCanonical(s);
    }
  }

  /** Distinct numbers never render to the same text. */
  lemma NatToStringInjective(a: nat, b: nat)
    ensures NatToString(a) == NatToString(b) <==> a == b
  {
    ParseNatToString(a);
    ParseNatToString(b);
  }

  lemma IntToStringInjective(a: int, b: int)
    ensures IntToString(a) == IntToString(b) <==> a == b
  {
    ParseIntToString(a);
    ParseIntToString(b);
  }
}

=== FILE: errors.dfy ===
/** The failures the backends report, one constructor per distinct cause. */
module Errors {

  datatype Error =
    | UnknownBackend(name: string)            // "backend <name> does not exist"
    | Unsupported(name: string, cause: Error) // "<name> not supported: <cause>"
    | NotFound(path: string)                  // os.Stat failed on path
    | UmlNotInstalled                         // "user-mode-linux not installed"
    | SlirpHelperNotInstalled                 // "slirp-helper not installed"
    | KernelReleaseUnknown                    // hostKernelRelease failed
    | KernelPathUnknown                       // hostKernelPath failed
    | SocketpairFailed                        // syscall.Socketpair failed
    | BadDescriptor(which: nat)               // "socketpair: f<which> is incorrect"
    | StartFailed(path: string)               // os.StartProcess failed for path
    | WaitFailed                              // Process.Wait failed
}

=== FILE: kvm.dfy ===
/**
  The hardware-accelerated backend (backend_kvm.go): QEMU with KVM, virtio
  consoles and disks, and 9p shared folders.
 */
module Kvm {
  import opened Results
  import opened Errors
  import opened Config
  import opened Text
  import opened Decimal
  import opened Process

  const Name := "kvm"
  const DeviceNode := "/dev/kvm"
  const EmulatorPath := "/usr/bin/qemu-system-x86_64"

  /** Where udev in the guest names a virtio disk by its serial. */
  const DiskByIdPrefix := "/dev/disk/by-id/virtio-"

  /** The capability check: one probe of the KVM device node. */
  function Supported(host: Host): (r: Probe)
    ensures r.probed == [DeviceNode]
    ensures r.verdict.Pass? <==> DeviceNode in host.existing
    ensures r.verdict.Fail? ==> r.verdict.cause == NotFound(DeviceNode)
  {
    Probe([DeviceNode], if DeviceNode in host.existing then Pass else Fail(NotFound(DeviceNode)))
  }

  /** Predicted guest path of an image: the by-id name of the virtio disk whose serial is the label. */
  function MachineImagePath(img: Image): (r: string)
    ensures StartsWith(r, DiskByIdPrefix) && r[|DiskByIdPrefix|..] == img.tag
  {
    DiskByIdPrefix + img.tag
  }

  /** The file of module `name` in directory `dir` of the kernel's module tree. */
  function ModuleFile(dir: string, name: string): (r: string)
    ensures StartsWith(r, "kernel/") && EndsWith(r, ".ko")
  {
    var suffix := "/" + name + ".ko";
    AffixesOfConcat("kernel/", dir, suffix);
    assert suffix[|suffix| - 3..] == ".ko";
    "kernel/" + dir + suffix
  }

  /** Module files the initrd must carry, relative to the module tree; order is significant. */
  function RequiredModules(): (r: seq<string>)
    ensures |r| == 8
  {
    [ModuleFile("drivers/char", "virtio_console"),
     ModuleFile("drivers/virtio", "virtio"),
     ModuleFile("drivers/virtio", "virtio_pci"),
     ModuleFile("net/9p", "9pnet"),
     ModuleFile("drivers/virtio", "virtio_ring"),
     ModuleFile("fs/9p", "9p"),
     ModuleFile("net/9p", "9pnet_virtio"),
     ModuleFile("fs/fscache", "fscache")]
  }

  /**
    Modules the init script probes, in order: each of the four needed names
    once, the virtio PCI transport before the console and 9p transport that
    sit on it, and the 9p transport before the 9p filesystem.
   */
  function InitModules(): (r: seq<string>)
    ensures |r| == 4 && Distinct(r)
    ensures forall k :: 0 <= k < |r| ==> r[k] in {"virtio_pci", "virtio_console", "9pnet_virtio", "9p"}
    ensures Precedes(r, "virtio_pci", "virtio_console") && Precedes(r, "virtio_pci", "9pnet_virtio")
    ensures Precedes(r, "9pnet_virtio", "9p")
  {
    var r := ["virtio_pci", "virtio_console", "9pnet_virtio", "9p"];
    assert r[0] == "virtio_pci" && r[1] == "virtio_console" && r[2] == "9pnet_virtio" && r[3] == "9p";
    r
  }

  /** The module file at `path` is the module called `name`. */
  predicate ProvidesModule(path: string, name: string) {
    EndsWith(path, "/" + name + ".ko")
  }

  /** Shared folders are 9p over virtio with fixed options, whatever the mount point. */
  function MountParameters(mount: MountPoint): (r: (string, seq<string>))
    ensures r.0 == "9p"
    ensures |r.1| == 4 && "trans=virtio" in r.1 && "cache=loose" in r.1
  {
    ("9p", ["trans=virtio", "version=9p2000.L", "cache=loose", "msize=262144"])
  }

  /** Job output shares the console when boot output is shown, else goes to the dedicated virtio console. */
  function JobOutputTTY(m: Machine): (r: string)
    ensures m.showBoot <==> r == "/dev/console"
    ensures !m.showBoot <==> r == "/dev/hvc0"
  {
    if m.showBoot then "/dev/console" else "/dev/hvc0"
  }

  const KernelArgs := ["console=ttyS0", "panic=-1", "systemd.unit=fakemachine.service"]

  /** The fixed leading arguments: CPU, memory, direct kernel and initrd boot, no display, no reboot. */
  function BaseArgs(m: Machine, kernelPath: string): seq<string> {
    ["qemu-system-x86_64",
     "-cpu", "host",
     "-smp", IntToString(m.numcpus),
     "-m", IntToString(m.memory),
     "-enable-kvm",
     "-kernel", kernelPath,
     "-initrd", m.initrdPath,
     "-display", "none",
     "-no-reboot"]
  }

  /**
    Console wiring. Showing boot: the serial port (the kernel console) is the
    supervisor's stdio. Quiet: the serial port is discarded and a virtio
    console `hvc0` is the supervisor's stdio.
   */
  function ConsoleArgs(showBoot: bool): seq<string> {
    if showBoot then
      ["-chardev", "stdio,id=for-ttyS0,signal=off",
       "-serial", "chardev:for-ttyS0"]
    else
      ["-device", "virtio-serial",
       "-chardev", "null,id=for-ttyS0",
       "-serial", "chardev:for-ttyS0",
       "-chardev", "stdio,id=for-hvc0,signal=off",
       "-device", "virtconsole,chardev=for-hvc0"]
  }

  function VirtfsArg(point: MountPoint): string {
    "local,mount_tag=" + point.tag + ",path=" + point.hostDirectory + ",security_model=none"
  }

  /** Identifier of the block backend for the image at position `i`. */
  function DriveId(i: nat): string {
    "drive-virtio-disk" + NatToString(i)
  }

  function DriveArg(i: nat, img: Image): string {
    ("file=" + img.path + ",") + "if=none,format=raw,cache=unsafe," + ("id=" + DriveId(i))
  }

  /** Everything in the `-device` argument of image `i` up to its serial. */
  function SerialPrefix(i: nat): string {
    ("virtio-blk-pci,drive=" + DriveId(i) + ",") + ("id=virtio-disk" + NatToString(i) + ",serial=")
  }

  function DeviceArg(i: nat, tag: string): string {
    SerialPrefix(i) + tag
  }

  /** Arguments for the first `n` mount points, two per mount, in list order. */
  function MountArgs(mounts: seq<MountPoint>, n: nat): (r: seq<string>)
    requires n <= |mounts|
    ensures |r| == 2 * n
    ensures forall j :: 0 <= j < n ==> r[2 * j] == "-virtfs" && r[2 * j + 1] == VirtfsArg(mounts[j])
  {
    if n == 0 then [] else MountArgs(mounts, n - 1) + ["-virtfs", VirtfsArg(mounts[n - 1])]
  }

  /** Arguments for the first `n` images, four per image, in list order. */
  function ImageArgs(images: seq<Image>, n: nat): (r: seq<string>)
    requires n <= |images|
    ensures |r| == 4 * n
    ensures forall i :: 0 <= i < n ==>
      && r[4 * i] == "-drive" && r[4 * i + 1] == DriveArg(i, images[i])
      && r[4 * i + 2] == "-device" && r[4 * i + 3] == DeviceArg(i, images[i].tag)
  {
    if n == 0 then []
    else ImageArgs(images, n - 1) + ["-drive", DriveArg(n - 1, images[n - 1]), "-device", DeviceArg(n - 1, images[n - 1].tag)]
  }

  function MountsAt(m: Machine): nat {
    15 + |ConsoleArgs(m.showBoot)|
  }

  function ImagesAt(m: Machine): nat {
    MountsAt(m) + 2 * |m.mounts|
  }

  /** The kernel command line: serial console, halt on panic, the fakemachine unit. */
  function KernelCommandLine(): (r: string)
    ensures r == KernelArgs[0] + " " + KernelArgs[1] + " " + KernelArgs[2]
    ensures StartsWith(r, "console=ttyS0 ")
  {
    assert Join(KernelArgs[2..], " ") == KernelArgs[2];
    assert Join(KernelArgs[1..], " ") == KernelArgs[1] + " " + KernelArgs[2];
    Join(KernelArgs, " ")
  }

  /** The two closing arguments: the kernel command line after `-append`. */
  function AppendArgs(): seq<string> {
    ["-append", KernelCommandLine()]
  }

  /** The emulator's argument vector, assembled in the order `Start` appends it. */
  function Argv(m: Machine, kernelPath: string): seq<string> {
    BaseArgs(m, kernelPath)
    + (ConsoleArgs(m.showBoot)
    + (MountArgs(m.mounts, |m.mounts|)
    + (ImageArgs(m.images, |m.images|)
    + AppendArgs())))
  }

  /** Argument `k` of the fixed prefix. */
  lemma ArgvBase(m: Machine, kernelPath: string, k: nat)
    requires k < 15
    ensures k < |Argv(m, kernelPath)| && Argv(m, kernelPath)[k] == BaseArgs(m, kernelPath)[k]
  {
    var rest := ConsoleArgs(m.showBoot) + (MountArgs(m.mounts, |m.mounts|) + (ImageArgs(m.images, |m.images|) + AppendArgs()));
    assert Argv(m, kernelPath) == BaseArgs(m, kernelPath) + rest;
    ConcatFront(BaseArgs(m, kernelPath), rest, k);
  }

  /** Argument `k` of the console wiring, right after the fixed prefix. */
  lemma ArgvConsole(m: Machine, kernelPath: string, k: nat)
    requires k < |ConsoleArgs(m.showBoot)|
    ensures 15 + k < |Argv(m, kernelPath)| && Argv(m, kernelPath)[15 + k] == ConsoleArgs(m.showBoot)[k]
  {
    var base := BaseArgs(m, kernelPath);
    var console := ConsoleArgs(m.showBoot);
    var rest := MountArgs(m.mounts, |m.mounts|) + (ImageArgs(m.images, |m.images|) + AppendArgs());
    assert Argv(m, kernelPath) == base + (console + rest);
    IndexSecond(base, console, rest, k);
  }

  /** The fixed prefix, then the console wiring, then two per mount, four per image and two closing arguments. */
  lemma ArgvHead(m: Machine, kernelPath: string)
    ensures |Argv(m, kernelPath)| == ImagesAt(m) + 4 * |m.images| + 2
    ensures forall k :: 0 <= k < 15 ==> Argv(m, kernelPath)[k] == BaseArgs(m, kernelPath)[k]
    ensures forall k :: 0 <= k < |ConsoleArgs(m.showBoot)| ==> Argv(m, kernelPath)[15 + k] == ConsoleArgs(m.showBoot)[k]
  {
    forall k | 0 <= k < 15
      ensures Argv(m, kernelPath)[k] == BaseArgs(m, kernelPath)[k]
    {
      ArgvBase(m, kernelPath, k);
    }
    forall k | 0 <= k < |ConsoleArgs(m.showBoot)|
      ensures Argv(m, kernelPath)[15 + k] == ConsoleArgs(m.showBoot)[k]
    {
      ArgvConsole(m, kernelPath, k);
    }
  }

  /** Two arguments per mount point, in list order, right after the console wiring. */
  lemma ArgvMounts(m: Machine, kernelPath: string, j: nat)
    requires j < |m.mounts|
    ensures MountsAt(m) + 2 * j + 1 < |Argv(m, kernelPath)|
    ensures Argv(m, kernelPath)[MountsAt(m) + 2 * j] == "-virtfs"
    ensures Argv(m, kernelPath)[MountsAt(m) + 2 * j + 1] == VirtfsArg(m.mounts[j])
  {
    var base := BaseArgs(m, kernelPath);
    var console := ConsoleArgs(m.showBoot);
    var mounts := MountArgs(m.mounts, |m.mounts|);
    var rest := ImageArgs(m.images, |m.images|) + AppendArgs();
    assert Argv(m, kernelPath) == base + (console + (mounts + rest));
    assert MountsAt(m) == |base| + |console|;
    IndexThird(base, console, mounts, rest, 2 * j);
    IndexThird(base, console, mounts, rest, 2 * j + 1);
  }

  /** Four arguments per image, in list order, right after the mounts. */
  lemma ArgvImages(m: Machine, kernelPath: string, i: nat)
    requires i < |m.images|
    ensures ImagesAt(m) + 4 * i + 3 < |Argv(m, kernelPath)|
    ensures Argv(m, kernelPath)[ImagesAt(m) + 4 * i] == "-drive"
    ensures Argv(m, kernelPath)[ImagesAt(m) + 4 * i + 1] == DriveArg(i, m.images[i])
    ensures Argv(m, kernelPath)[ImagesAt(m) + 4 * i + 2] == "-device"
    ensures Argv(m, kernelPath)[ImagesAt(m) + 4 * i + 3] == DeviceArg(i, m.images[i].tag)
  {
    var base := BaseArgs(m, kernelPath);
    var console := ConsoleArgs(m.showBoot);
    var mounts := MountArgs(m.mounts, |m.mounts|);
    var images := ImageArgs(m.images, |m.images|);
    assert Argv(m, kernelPath) == base + (console + (mounts + (images + AppendArgs())));
    assert ImagesAt(m) == |base| + |console| + |mounts|;
    IndexFourth(base, console, mounts, images, AppendArgs(), 4 * i);
    IndexFourth(base, console, mounts, images, AppendArgs(), 4 * i + 1);
    IndexFourth(base, console, mounts, images, AppendArgs(), 4 * i + 2);
    IndexFourth(base, console, mounts, images, AppendArgs(), 4 * i + 3);
  }

  /** The kernel command line is the last argument, after `-append`. */
  lemma ArgvTail(m: Machine, kernelPath: string)
    ensures |Argv(m, kernelPath)| >= 17
    ensures Argv(m, kernelPath)[|Argv(m, kernelPath)| - 2] == "-append"
    ensures Argv(m, kernelPath)[|Argv(m, kernelPath)| - 1] == KernelCommandLine()
  {
    var base := BaseArgs(m, kernelPath);
    var console := ConsoleArgs(m.showBoot);
    var mounts := MountArgs(m.mounts, |m.mounts|);
    var images := ImageArgs(m.images, |m.images|);
    assert Argv(m, kernelPath) == base + (console + (mounts + (images + AppendArgs())));
    IndexFifth(base, console, mounts, images, AppendArgs(), 0);
    IndexFifth(base, console, mounts, images, AppendArgs(), 1);
  }

  function LaunchSpawn(m: Machine, kernelPath: string): Spawn {
    Spawn(EmulatorPath, Argv(m, kernelPath), Stdio)
  }

  /**
    `Start`: resolve the host kernel, launch the emulator with the supervisor's
    stdio, wait for it and propagate its exit code; any failure yields -1 and
    an error.
   */
  function Start(m: Machine, host: Host, o: Outcomes): (r: RunResult)
    ensures r.err.None? <==> host.kernelPath.Some? && o.startGuest && o.wait.Some?
    ensures r.err.None? ==> r.exitCode == o.wait.value
    ensures r.err.Some? ==> r.exitCode == -1
    ensures host.kernelPath.None? ==> r.trace == [] && r.err == Some(KernelPathUnknown)
    ensures host.kernelPath.Some? && !o.startGuest ==> r.trace == [] && r.err == Some(StartFailed(EmulatorPath))
    ensures host.kernelPath.Some? && o.startGuest && o.wait.None? ==> r.err == Some(WaitFailed)
    ensures forall e :: e in r.trace && e.Started? ==>
      host.kernelPath.Some? && e.proc == Guest && e.spawn.path == EmulatorPath
      && e.spawn.argv == Argv(m, host.kernelPath.value) && e.spawn.files == Stdio
    ensures host.kernelPath.Some? && o.startGuest ==>
      |r.trace| >= 1 && r.trace[0] == Started(Guest, LaunchSpawn(m, host.kernelPath.value))
    ensures r.err.None? ==> Waited(Guest) in r.trace
    ensures Balanced(r.trace, false)
  {
    match host.kernelPath
    case None => RunResult([], -1, Some(KernelPathUnknown))
    case Some(kernelPath) =>
      if !o.startGuest then RunResult([], -1, Some(StartFailed(EmulatorPath)))
      else
        var launch := LaunchSpawn(m, kernelPath);
        GuestOnlyRun(launch);
        match o.wait
        case None => RunResult([Started(Guest, launch)], -1, Some(WaitFailed))
        case Some(code) => RunResult([Started(Guest, launch), Waited(Guest)], code, None)
  }

  /** A module file named after its module, in any directory, ships that module. */
  lemma ModuleFileProvides(dir: string, name: string)
    ensures ProvidesModule(ModuleFile(dir, name), name)
  {
    AffixesOfConcat("kernel/", dir, "/" + name + ".ko");
  }

  /** Position in `RequiredModules()` of the file shipping each init module. */
  function ShippedAt(k: nat): (i: nat)
    requires k < |InitModules()|
    ensures i < |RequiredModules()| && ProvidesModule(RequiredModules()[i], InitModules()[k])
  {
    if k == 0 then ModuleFileProvides("drivers/virtio", "virtio_pci"); 2
    else if k == 1 then ModuleFileProvides("drivers/char", "virtio_console"); 0
    else if k == 2 then ModuleFileProvides("net/9p", "9pnet_virtio"); 6
    else ModuleFileProvides("fs/9p", "9p"); 5
  }

  /** Some required module file ships the module called `name`. */
  predicate Shipped(name: string) {
    exists i :: 0 <= i < |RequiredModules()| && ProvidesModule(RequiredModules()[i], name)
  }

  /** Each module the init script probes is shipped by one of the required module files. */
  lemma InitModulesAreRequired()
    ensures forall k :: 0 <= k < |InitModules()| ==> Shipped(InitModules()[k])
  {
    forall k | 0 <= k < |InitModules()|
      ensures Shipped(InitModules()[k])
    {
      var i := ShippedAt(k);
    }
  }

  /** The mount translation does not depend on which mount point is asked about. */
  lemma MountParametersIgnoreMountPoint(a: MountPoint, b: MountPoint)
    ensures MountParameters(a) == MountParameters(b)
  {
  }

  /** The emulator reads back the configured vCPU count, memory size, kernel and initrd. */
  lemma ArgvCarriesConfiguration(m: Machine, kernelPath: string)
    ensures var r := Argv(m, kernelPath);
      && |r| > 11
      && r[3] == "-smp" && ParseInt(r[4]) == Some(m.numcpus)
      && r[5] == "-m" && ParseInt(r[6]) == Some(m.memory)
      && r[8] == "-kernel" && r[9] == kernelPath
      && r[10] == "-initrd" && r[11] == m.initrdPath
  {
    ArgvBase(m, kernelPath, 3);
    ArgvBase(m, kernelPath, 4);
    ArgvBase(m, kernelPath, 5);
    ArgvBase(m, kernelPath, 6);
    ArgvBase(m, kernelPath, 8);
    ArgvBase(m, kernelPath, 9);
    ArgvBase(m, kernelPath, 10);
    ArgvBase(m, kernelPath, 11);
    ParseIntToString(m.numcpus);
    ParseIntToString(m.memory);
  }

  /** Images at different positions get block backends with different identifiers. */
  lemma DriveIdsDistinct(i: nat, j: nat)
    ensures DriveId(i) == DriveId(j) <==> i == j
  {
    var p := "drive-virtio-disk";
    if DriveId(i) == DriveId(j) {
      assert DriveId(i)[|p|..] == NatToString(i);
      assert DriveId(j)[|p|..] == NatToString(j);
      NatToStringInjective(i, j);
    }
  }

  /** A `-drive` argument names the image file first and its drive identifier last. */
  lemma DriveArgShape(i: nat, img: Image)
    ensures StartsWith(DriveArg(i, img), "file=" + img.path + ",")
    ensures EndsWith(DriveArg(i, img), "id=" + DriveId(i))
  {
    AffixesOfConcat("file=" + img.path + ",", "if=none,format=raw,cache=unsafe,", "id=" + DriveId(i));
  }

  /** A `-device` argument refers to its drive, and everything after its serial key is the label. */
  lemma DeviceArgShape(i: nat, tag: string)
    ensures StartsWith(DeviceArg(i, tag), "virtio-blk-pci,drive=" + DriveId(i) + ",")
    ensures StartsWith(DeviceArg(i, tag), SerialPrefix(i))
    ensures DeviceArg(i, tag)[|SerialPrefix(i)|..] == tag
  {
    var key := "virtio-blk-pci,drive=" + DriveId(i) + ",";
    AffixesOfConcat(key, "id=virtio-disk" + NatToString(i) + ",serial=", tag);
    PrefixOfConcat(SerialPrefix(i), tag);
  }

  /**
    The image-path prediction agrees with the launch: image `i` is attached as a
    drive with its host path under its own drive identifier, and the virtio
    disk referring to that drive carries as its serial exactly the label the
    prediction names under the by-id directory.
   */
  lemma ImagePathMatchesLaunch(m: Machine, kernelPath: string, i: nat)
    requires i < |m.images|
    ensures var r := Argv(m, kernelPath); var p := ImagesAt(m) + 4 * i;
      && p + 3 < |r|
      && r[p] == "-drive" && StartsWith(r[p + 1], "file=" + m.images[i].path + ",")
      && EndsWith(r[p + 1], "id=" + DriveId(i))
      && r[p + 2] == "-device" && StartsWith(r[p + 3], "virtio-blk-pci,drive=" + DriveId(i) + ",")
      && StartsWith(r[p + 3], SerialPrefix(i))
      && MachineImagePath(m.images[i]) == DiskByIdPrefix + r[p + 3][|SerialPrefix(i)|..]
  {
    ArgvImages(m, kernelPath, i);
    DriveArgShape(i, m.images[i]);
    DeviceArgShape(i, m.images[i].tag);
  }

  /**
    Console wiring agrees with the job-output device. Showing boot, the
    supervisor's stdio is the serial port, which the kernel command line makes
    the console, and jobs write to `/dev/console`. Quiet, the serial port is
    discarded and stdio is the virtio console `hvc0`, where jobs write.
    `ArgvHead` places these arguments right after the fixed prefix and
    `ArgvTail` puts the kernel command line last.
   */
  lemma ConsoleMatchesJobOutput(m: Machine)
    ensures var c := ConsoleArgs(m.showBoot);
      if m.showBoot then
        && JobOutputTTY(m) == "/dev/console"
        && HasPair(c, "-chardev", "stdio,id=for-ttyS0,signal=off")
        && HasPair(c, "-serial", "chardev:for-ttyS0")
        && StartsWith(KernelCommandLine(), "console=ttyS0 ")
      else
        && JobOutputTTY(m) == "/dev/hvc0"
        && HasPair(c, "-chardev", "null,id=for-ttyS0")
        && HasPair(c, "-serial", "chardev:for-ttyS0")
        && HasPair(c, "-chardev", "stdio,id=for-hvc0,signal=off")
        && HasPair(c, "-device", "virtconsole,chardev=for-hvc0")
  {
    var c := ConsoleArgs(m.showBoot);
    if m.showBoot {
      assert c[0] == "-chardev" && c[1] == "stdio,id=for-ttyS0,signal=off";
      assert c[2] == "-serial" && c[3] == "chardev:for-ttyS0";
    } else {
      assert c[2] == "-chardev" && c[3] == "null,id=for-ttyS0";
      assert c[4] == "-serial" && c[5] == "chardev:for-ttyS0";
      assert c[6] == "-chardev" && c[7] == "stdio,id=for-hvc0,signal=off";
      assert c[8] == "-device" && c[9] == "virtconsole,chardev=for-hvc0";
    }
  }
}

=== FILE: process.dfy ===
/**
  The effects of a backend's `Start`, recorded as a trace, and the ownership
  discipline the trace must respect. Socket-pair endpoints (wrapped as files)
  and the network-helper process are the resources a run acquires; a trace is
  `Balanced` when replaying it never releases what is not held, never
  launches a process with a closed endpoint, and ends holding nothing.
 */
module Process {
  import opened Results
  import opened Errors

  /** A descriptor handed to a child: the supervisor's stdio, or one end of the socket pair (0 is f1, 1 is f2). */
  datatype FileRef = Stdin | Stdout | Stderr | SocketEnd(end: nat)

  /** The child processes a run can start: the slirp network helper and the guest (emulator or UML kernel). */
  datatype Proc = Helper | Guest

  /** The arguments of one `os.StartProcess` call: executable, argv and inherited files (index = child fd). */
  datatype Spawn = Spawn(path: string, argv: seq<string>, files: seq<FileRef>)

  datatype Event =
    | SocketpairCreated
    | Wrapped(end: nat)            // os.NewFile succeeded for this end
    | Closed(end: nat)             // deferred File.Close ran
    | Started(proc: Proc, spawn: Spawn)
    | Killed(proc: Proc)           // deferred Process.Kill ran
    | Waited(proc: Proc)           // Process.Wait returned

  datatype Resource = Endpoint(end: nat) | Running(proc: Proc)

  /**
    The answers the host gives to each effect of `Start`, in order: the socket
    pair, wrapping each end as a file, starting the helper, starting the guest,
    and waiting for the guest (its exit code, or `None` when waiting fails).
   */
  datatype Outcomes = Outcomes(
    socketpair: bool,
    wrapF1: bool,
    wrapF2: bool,
    startHelper: bool,
    startGuest: bool,
    wait: Option<int>)

  /** What `Start` returns (exit code, optional error) together with the effects it performed. */
  datatype RunResult = RunResult(trace: seq<Event>, exitCode: int, err: Option<Error>)

  function Acquires(e: Event): Option<Resource> {
    match e
    case Wrapped(k) => Some(Endpoint(k))
    case Started(Helper, _) => Some(Running(Helper))
    case _ => None
  }

  function Releases(e: Event): Option<Resource> {
    match e
    case Closed(k) => Some(Endpoint(k))
    case Killed(p) => Some(Running(p))
    case _ => None
  }

  /** Every socket end passed to a child is currently open. */
  predicate EndsOpen(held: set<Resource>, files: seq<FileRef>) {
    forall i :: 0 <= i < |files| && files[i].SocketEnd? ==> Endpoint(files[i].end) in held
  }

  /**
    One event's effect on the set of held resources, or `None` when the event
    breaks the discipline. With `helperFirst`, the guest may only start while
    the helper runs.
   */
  function Step(held: set<Resource>, e: Event, helperFirst: bool): (r: Option<set<Resource>>)
    ensures r.Some? && Acquires(e).Some? ==> Acquires(e).value !in held && r.value == held + {Acquires(e).value}
    ensures r.Some? && Releases(e).Some? ==> Releases(e).value in held && r.value == held - {Releases(e).value}
    ensures r.Some? && Acquires(e).None? && Releases(e).None? ==> r.value == held
    ensures r.Some? && e.Started? ==> EndsOpen(held, e.spawn.files)
    ensures r.Some? && e.Started? && e.proc == Guest && helperFirst ==> Running(Helper) in held
  {
    match e
    case SocketpairCreated => Some(held)
    case Wrapped(k) => if Endpoint(k) in held then None else Some(held + {Endpoint(k)})
    case Closed(k) => if Endpoint(k) in held then Some(held - {Endpoint(k)}) else None
    case Started(Helper, sp) =>
      if Running(Helper) !in held && EndsOpen(held, sp.files) then Some(held + {Running(Helper)}) else None
    case Started(Guest, sp) =>
      if (!helperFirst || Running(Helper) in held) && EndsOpen(held, sp.files) then Some(held) else None
    case Killed(p) => if Running(p) in held then Some(held - {Running(p)}) else None
    case Waited(_) => Some(held)
  }

  function Replay(held: set<Resource>, t: seq<Event>, helperFirst: bool): Option<set<Resource>>
    decreases |t|
  {
    if |t| == 0 then Some(held)
    else match Step(held, t[0], helperFirst)
      case None => None
      case Some(next) => Replay(next, t[1..], helperFirst)
  }

  /** Replaying a concatenation replays the first part, then the second from where it left off. */
  lemma {:induction false} ReplayConcat(held: set<Resource>, a: seq<Event>, b: seq<Event>, helperFirst: bool)
    ensures Replay(held, a + b, helperFirst) ==
      match Replay(held, a, helperFirst)
      case None => None
      case Some(mid) => Replay(mid, b, helperFirst)
    decreases |a|
  {
    if |a| > 0 {
      assert (a + b)[0] == a[0];
      assert (a + b)[1..] == a[1..] + b;
      match Step(held, a[0], helperFirst)
      case None =>
      case Some(next) => ReplayConcat(next, a[1..], b, helperFirst);
    } else {
      assert a + b == b;
    }
  }

  /** Replaying one more event steps from where the replay of the prefix left off. */
  lemma ReplayExtend(held: set<Resource>, t: seq<Event>, e: Event, helperFirst: bool)
    requires Replay(held, t, helperFirst).Some?
    ensures Replay(held, t + [e], helperFirst) == Step(Replay(held, t, helperFirst).value, e, helperFirst)
  {
    ReplayConcat(held, t, [e], helperFirst);
    var mid := Replay(held, t, helperFirst).value;
    assert [e][1..] == [];
    match Step(mid, e, helperFirst)
    case None =>
    case Some(next) => assert Replay(next, [], helperFirst) == Some(next);
  }

  /** The run released everything it acquired, exactly once, and kept the launch discipline. */
  predicate Balanced(t: seq<Event>, helperFirst: bool) {
    Replay({}, t, helperFirst) == Some({})
  }

  /** The supervisor's own stdio, handed to a child as its descriptors 0, 1 and 2. */
  const Stdio: seq<FileRef> := [Stdin, Stdout, Stderr]

  /** A run that only launches a guest on the supervisor's stdio, and possibly waits for it, keeps the discipline. */
  lemma GuestOnlyRun(sp: Spawn)
    requires sp.files == Stdio
    ensures Balanced([Started(Guest, sp)], false)
    ensures Balanced([Started(Guest, sp), Waited(Guest)], false)
  {
    var launch := [Started(Guest, sp)];
    assert EndsOpen({}, sp.files);
    assert Step({}, launch[0], false) == Some({});
    assert launch[1..] == [];
    assert Replay({}, launch, false) == Some({});
    var run := launch + [Waited(Guest)];
    assert run[0] == launch[0] && run[1..] == [Waited(Guest)];
    assert Replay({}, [Waited(Guest)], false) == Some({}) by {
      assert [Waited(Guest)][1..] == [];
    }
    assert run == [Started(Guest, sp), Waited(Guest)];
  }

  lemma {:induction false} HeldIsReleased(held: set<Resource>, t: seq<Event>, helperFirst: bool, r: Resource)
    requires r in held
    requires Replay(held, t, helperFirst) == Some({})
    ensures exists j :: 0 <= j < |t| && Releases(t[j]) == Some(r)
    decreases |t|
  {
    var next := Step(held, t[0], helperFirst).value;
    if Releases(t[0]) == Some(r) {
      assert Releases(t[0]) == Some(r);
    } else {
      assert r in next;
      HeldIsReleased(next, t[1..], helperFirst, r);
      var j :| 0 <= j < |t[1..]| && Releases(t[1..][j]) == Some(r);
      assert Releases(t[j + 1]) == Some(r);
    }
  }

  /** In a replay that ends empty, every acquisition is followed by its release. */
  lemma {:induction false} AcquiredIsReleased(held: set<Resource>, t: seq<Event>, helperFirst: bool, i: nat)
    requires Replay(held, t, helperFirst) == Some({})
    requires i < |t| && Acquires(t[i]).Some?
    ensures exists j :: i < j < |t| && Releases(t[j]) == Acquires(t[i])
    decreases i
  {
    var next := Step(held, t[0], helperFirst).value;
    if i == 0 {
      HeldIsReleased(next, t[1..], helperFirst, Acquires(t[0]).value);
      var j :| 0 <= j < |t[1..]| && Releases(t[1..][j]) == Acquires(t[0]);
      assert Releases(t[j + 1]) == Acquires(t[0]);
    } else {
      AcquiredIsReleased(next, t[1..], helperFirst, i - 1);
      var j :| i - 1 < j < |t[1..]| && Releases(t[1..][j]) == Acquires(t[1..][i - 1]);
      assert Releases(t[j + 1]) == Acquires(t[i]);
    }
  }

  /**
    Under the helper-first discipline, a guest start is preceded by a helper
    start (when the replay began without a running helper).
   */
  lemma {:induction false} GuestAfterHelper(held: set<Resource>, t: seq<Event>, j: nat)
    requires Running(Helper) !in held
    requires Replay(held, t, true).Some?
    requires j < |t| && t[j].Started? && t[j].proc == Guest
    ensures exists i :: 0 <= i < j && t[i].Started? && t[i].proc == Helper
    decreases j
  {
    var next := Step(held, t[0], true).value;
    if t[0].Started? && t[0].proc == Helper {
      assert 0 < j;
    } else {
      assert Running(Helper) !in next;
      GuestAfterHelper(next, t[1..], j - 1);
      var i :| 0 <= i < j - 1 && t[1..][i].Started? && t[1..][i].proc == Helper;
      assert t[i + 1].Started? && t[i + 1].proc == Helper;
    }
  }
}

=== FILE: results.dfy ===
/** Carriers for the model's optional and fallible results. */
module Results {

  /** A value that may be absent. */
  datatype Option<+T> = None | Some(value: T)

  /** Either a value or an error: Go's `(T, error)` pair where exactly one side is meaningful. */
  datatype Result<+T, +E> = Ok(value: T) | Err(error: E)

  /** A check that either passes or fails with a cause: Go's `(bool, error)` pair. */
  datatype Outcome<+E> = Pass | Fail(cause: E)
}

=== FILE: text.dfy ===
/**
  String helpers the backends rely on: prefix and suffix tests, Go's
  `strings.Join`, adjacency in an argument vector, and the `*` wildcard of the
  interface-name globs that systemd-networkd matches against.
 */
module Text {

  predicate StartsWith(s: string, p: string) {
    |p| <= |s| && s[..|p|] == p
  }

  predicate EndsWith(s: string, q: string) {
    |q| <= |s| && s[|s| - |q|..] == q
  }

  /** Go's `strings.Join`: the parts in order with `sep` between neighbours. */
  function Join(parts: seq<string>, sep: string): (r: string)
    ensures |parts| == 0 ==> r == ""
    ensures |parts| > 0 ==> StartsWith(r, parts[0]) && EndsWith(r, parts[|parts| - 1])
    ensures |parts| > 1 ==> StartsWith(r, parts[0] + sep)
  {
    if |parts| == 0 then ""
    else if |parts| == 1 then parts[0]
    else
      var tail := Join(parts[1..], sep);
      assert (parts[0] + sep + tail)[..|parts[0] + sep|] == parts[0] + sep;
      assert (parts[0] + sep + tail)[..|parts[0]|] == parts[0];
      parts[0] + sep + tail
  }

  /** `a` immediately followed by `b` somewhere in `argv`. */
  predicate HasPair(argv: seq<string>, a: string, b: string) {
    exists k :: 0 <= k < |argv| - 1 && argv[k] == a && argv[k + 1] == b
  }

  /** `a` occurs strictly before `b` in `s`. */
  predicate Precedes<T(==)>(s: seq<T>, a: T, b: T) {
    exists i, j :: 0 <= i < j < |s| && s[i] == a && s[j] == b
  }

  /** No element occurs twice. */
  predicate Distinct<T(==)>(s: seq<T>) {
    forall i, j :: 0 <= i < j < |s| ==> s[i] != s[j]
  }

  /** The elements of `s`, last first. */
  function Reverse<T>(s: seq<T>): (r: seq<T>)
    ensures |r| == |s|
    ensures forall i :: 0 <= i < |s| ==> r[i] == s[|s| - 1 - i]
  {
    if |s| == 0 then [] else Reverse(s[1..]) + [s[0]]
  }

  /** Shell-style glob with `*` as the only wildcard; every other character matches itself. */
  function GlobMatch(pattern: string, name: string): bool
    decreases |pattern| + |name|
  {
    if |pattern| == 0 then |name| == 0
    else if pattern[0] == '*' then GlobMatch(pattern[1..], name) || (|name| > 0 && GlobMatch(pattern, name[1..]))
    else |name| > 0 && pattern[0] == name[0] && GlobMatch(pattern[1..], name[1..])
  }

  /** Indexing into the front part of a concatenation. */
  lemma ConcatFront<T>(a: seq<T>, b: seq<T>, k: nat)
    requires k < |a|
    ensures k < |a + b| && (a + b)[k] == a[k]
  {
  }

  /** Indexing into the back part of a concatenation. */
  lemma ConcatBack<T>(a: seq<T>, b: seq<T>, k: nat)
    requires k < |b|
    ensures |a| + k < |a + b| && (a + b)[|a| + k] == b[k]
  {
  }

  /** Indexing into the parts of a right-nested concatenation `a + (b + (c + (d + e)))`. */
  lemma IndexSecond<T>(a: seq<T>, b: seq<T>, rest: seq<T>, k: nat)
    requires k < |b|
    ensures |a| + k < |a + (b + rest)| && (a + (b + rest))[|a| + k] == b[k]
  {
    ConcatFront(b, rest, k);
    ConcatBack(a, b + rest, k);
  }

  lemma IndexThird<T>(a: seq<T>, b: seq<T>, c: seq<T>, rest: seq<T>, k: nat)
    requires k < |c|
    ensures |a| + |b| + k < |a + (b + (c + rest))| && (a + (b + (c + rest)))[|a| + |b| + k] == c[k]
  {
    IndexSecond(b, c, rest, k);
    ConcatBack(a, b + (c + rest), |b| + k);
  }

  lemma IndexFourth<T>(a: seq<T>, b: seq<T>, c: seq<T>, d: seq<T>, e: seq<T>, k: nat)
    requires k < |d|
    ensures |a| + |b| + |c| + k < |a + (b + (c + (d + e)))|
    ensures (a + (b + (c + (d + e))))[|a| + |b| + |c| + k] == d[k]
  {
    IndexThird(b, c, d, e, k);
    ConcatBack(a, b + (c + (d + e)), |b| + |c| + k);
  }

  lemma IndexFifth<T>(a: seq<T>, b: seq<T>, c: seq<T>, d: seq<T>, e: seq<T>, k: nat)
    requires k < |e|
    ensures |a| + |b| + |c| + |d| + k < |a + (b + (c + (d + e)))|
    ensures (a + (b + (c + (d + e))))[|a| + |b| + |c| + |d| + k] == e[k]
  {
    ConcatBack(d, e, k);
    ConcatBack(c, d + e, |d| + k);
    ConcatBack(b, c + (d + e), |c| + |d| + k);
    ConcatBack(a, b + (c + (d + e)), |b| + |c| + |d| + k);
  }

  /** A concatenation starts with its first part and continues with the second. */
  lemma PrefixOfConcat(a: string, b: string)
    ensures StartsWith(a + b, a) && (a + b)[|a|..] == b
  {
  }

  /** A three-part concatenation starts with its first part and ends with its last. */
  lemma AffixesOfConcat(a: string, m: string, b: string)
    ensures StartsWith(a + m + b, a) && EndsWith(a + m + b, b)
  {
    assert (a + m + b)[..|a|] == a;
    assert (a + m + b)[|a + m|..] == b;
  }

  lemma {:induction false} StarMatchesAnything(name: string)
    ensures GlobMatch("*", name)
    decreases |name|
  {
    if |name| > 0 {
      StarMatchesAnything(name[1..]);
    }
  }

  /** A literal prefix followed by one `*` matches exactly the names that start with that prefix. */
  lemma {:induction false} PrefixGlob(prefix: string, name: string)
    requires forall i :: 0 <= i < |prefix| ==> prefix[i] != '*'
    ensures GlobMatch(prefix + "*", name) <==> StartsWith(name, prefix)
    decreases |prefix|
  {
    if |prefix| == 0 {
      assert prefix + "*" == "*";
      StarMatchesAnything(name);
    } else {
      var p := prefix + "*";
      assert p[0] == prefix[0];
      assert p[1..] == prefix[1..] + "*";
      if |name| > 0 {
        PrefixGlob(prefix[1..], name[1..]);
        if StartsWith(name[1..], prefix[1..]) && name[0] == prefix[0] {
          assert name[..|prefix|] == [name[0]] + name[1..][..|prefix| - 1];
          assert prefix == [prefix[0]] + prefix[1..];
        }
        if StartsWith(name, prefix) {
          assert name[1..][..|prefix| - 1] == name[..|prefix|][1..];
        }
      }
    }
  }

  /** `PrefixGlob` for every name at once. */
  lemma PrefixGlobAll(prefix: string)
    requires forall i :: 0 <= i < |prefix| ==> prefix[i] != '*'
    ensures forall name :: GlobMatch(prefix + "*", name) <==> StartsWith(name, prefix)
  {
    forall name
      ensures GlobMatch(prefix + "*", name) <==> StartsWith(name, prefix)
    {
      PrefixGlob(prefix, name);
    }
  }
}

=== FILE: uml.dfy ===
/**
  The software backend (backend_uml.go): a user-mode Linux kernel started
  directly, with a slirp helper process providing the network over one end of
  a datagram socket pair while the guest holds the other end.
 */
module Uml {
  import opened Results
  import opened Errors
  import opened Config
  import opened Text
  import opened Decimal
  import opened Process

  const Name := "uml"

  /** The host paths a UML backend works with. */
  datatype Paths = Paths(kernelPath: string, moduleDir: string, slirpHelperPath: string)

  /**
    The paths `newUmlBackend` leaves in place. The constructor first assigns
    packaged locations and then overwrites all three with a developer's build
    tree; these are the values that remain.
   */
  const DefaultPaths := Paths(
    "/home/obbardc/projects/debos/uml/linux-uml/linux",
    "/home/obbardc/projects/debos/uml/linux-uml/modules/lib/modules",
    "/home/obbardc/projects/debos/uml/libslirp-rs/target/debug/libslirp-helper")

  /** Where udev in the guest names the block device at a given position. */
  const DiskByPathPrefix := "/dev/disk/by-path/platform-uml-blkdev."

  /**
    The capability check: the kernel binary is probed first and, only when it
    exists, the helper binary; each absence has its own cause.
   */
  function Supported(paths: Paths, host: Host): (r: Probe)
    ensures r.verdict.Pass? <==> paths.kernelPath in host.existing && paths.slirpHelperPath in host.existing
    ensures paths.kernelPath !in host.existing ==> r.probed == [paths.kernelPath] && r.verdict == Fail(UmlNotInstalled)
    ensures paths.kernelPath in host.existing ==> r.probed == [paths.kernelPath, paths.slirpHelperPath]
    ensures paths.kernelPath in host.existing && paths.slirpHelperPath !in host.existing ==>
      r.verdict == Fail(SlirpHelperNotInstalled)
  {
    if paths.kernelPath !in host.existing then Probe([paths.kernelPath], Fail(UmlNotInstalled))
    else if paths.slirpHelperPath !in host.existing then
      Probe([paths.kernelPath, paths.slirpHelperPath], Fail(SlirpHelperNotInstalled))
    else Probe([paths.kernelPath, paths.slirpHelperPath], Pass)
  }

  /** Predicted guest path of an image, from its index (not its position in the list). */
  function MachineImagePath(img: Image): (r: string)
    ensures StartsWith(r, DiskByPathPrefix) && ParseInt(r[|DiskByPathPrefix|..]) == Some(img.index)
    ensures Canonical(r[|DiskByPathPrefix|..])
    ensures img.index >= 0 ==> r == GuestUbdPath(img.index)
  {
    var r := DiskByPathPrefix + IntToString(img.index);
    assert r[|DiskByPathPrefix|..] == IntToString(img.index);
    ParseIntToString(img.index);
    r
  }

  /** What the guest calls block device `ubd<n>` under the by-path directory. */
  function GuestUbdPath(n: nat): string {
    DiskByPathPrefix + NatToString(n)
  }

  /** The UML kernel has its drivers built in: nothing to add to the initrd. */
  function RequiredModules(): (r: seq<string>)
    ensures |r| == 0
  {
    []
  }

  /** The backend's own module tree, which must exist on the host. */
  function KernelModulesDir(paths: Paths, host: Host): (r: Result<string, Error>)
    ensures r.Ok? <==> paths.moduleDir in host.existing
    ensures r.Ok? ==> r.value == paths.moduleDir
    ensures r.Err? ==> r.error == NotFound(paths.moduleDir)
  {
    if paths.moduleDir in host.existing then Ok(paths.moduleDir) else Err(NotFound(paths.moduleDir))
  }

  /** The module tree bind-mounted over the guest's `/lib/modules`. */
  function ModuleVolume(paths: Paths): MountPoint {
    MountPoint(paths.moduleDir, "/lib/modules", "modules", true)
  }

  /** The machine's static volumes, unchanged, followed by the module volume. */
  function StaticVolumes(m: Machine, paths: Paths): (r: seq<MountPoint>)
    ensures |r| == |m.staticVolumes| + 1
    ensures r[..|m.staticVolumes|] == m.staticVolumes
    ensures r[|r| - 1].hostDirectory == paths.moduleDir && r[|r| - 1].machineDirectory == "/lib/modules"
    ensures r[|r| - 1].tag == "modules" && r[|r| - 1].isStatic
  {
    m.staticVolumes + [ModuleVolume(paths)]
  }

  /** The networkd match: exactly the interface names that begin with `vec`, the guest's vector devices. */
  function NetworkdMatch(): (r: string)
    ensures forall name :: GlobMatch(r, name) <==> StartsWith(name, "vec")
  {
    PrefixGlobAll("vec");
    assert "vec" + "*" == "vec*";
    "vec*"
  }

  /** Shared folders are hostfs mounts whose only option is the host directory. */
  function MountParameters(mount: MountPoint): (r: (string, seq<string>))
    ensures r.0 == "hostfs"
    ensures |r.1| == 1 && r.1[0] == mount.hostDirectory
  {
    ("hostfs", [mount.hostDirectory])
  }

  /** Job output goes to the first terminal when boot output is shown, else to the second. */
  function JobOutputTTY(m: Machine): (r: string)
    ensures m.showBoot <==> r == "/dev/tty0"
    ensures !m.showBoot <==> r == "/dev/tty1"
  {
    if m.showBoot then "/dev/tty0" else "/dev/tty1"
  }

  /** The guest's network device: a vector transport over the descriptor it inherits as fd 3. */
  const VecArg := "vec0:transport=fd,fd=3,vec=0"

  /** Fixed leading kernel arguments: memory, initrd, panic policy, init unit, console and network. */
  function BaseArgs(m: Machine): seq<string> {
    ["linux",
     "mem=" + IntToString(m.memory) + "M",
     "initrd=" + m.initrdPath,
     "panic=-1",
     "nosplash",
     "systemd.unit=fakemachine.service",
     "console=tty0",
     VecArg]
  }

  /**
    Console wiring. Showing boot: terminal 0 is the supervisor's stdio.
    Quiet: kernel messages are suppressed, terminal 1 is the supervisor's
    stdio and terminal 0 is discarded. No other console exists in either mode.
   */
  function ConsoleArgs(showBoot: bool): seq<string> {
    if showBoot then ["con0=fd:0,fd:1", "con=none"]
    else ["quiet", "con1=fd:0,fd:1", "con0=null", "con=none"]
  }

  function UbdArg(i: nat, img: Image): string {
    "ubd" + NatToString(i) + "=" + img.path
  }

  /** One block-device argument for each of the first `n` images, named by position. */
  function UbdArgs(images: seq<Image>, n: nat): (r: seq<string>)
    requires n <= |images|
    ensures |r| == n
    ensures forall i :: 0 <= i < n ==> r[i] == UbdArg(i, images[i])
  {
    if n == 0 then [] else UbdArgs(images, n - 1) + [UbdArg(n - 1, images[n - 1])]
  }

  function UbdAt(m: Machine): nat {
    8 + |ConsoleArgs(m.showBoot)|
  }

  /** The guest kernel's argument vector. */
  function Argv(m: Machine): seq<string> {
    BaseArgs(m) + ConsoleArgs(m.showBoot) + UbdArgs(m.images, |m.images|)
  }

  /** Layout: the fixed prefix, the console wiring, then one argument per image in list order. */
  lemma ArgvLayout(m: Machine)
    ensures |Argv(m)| == UbdAt(m) + |m.images|
    ensures Argv(m)[..8] == BaseArgs(m)
    ensures Argv(m)[8..UbdAt(m)] == ConsoleArgs(m.showBoot)
    ensures forall i :: 0 <= i < |m.images| ==> Argv(m)[UbdAt(m) + i] == UbdArg(i, m.images[i])
  {
    var head := BaseArgs(m) + ConsoleArgs(m.showBoot);
    var ubd := UbdArgs(m.images, |m.images|);
    assert Argv(m) == head + ubd;
    assert |head| == UbdAt(m);
    assert head[..8] == BaseArgs(m);
    assert head[8..] == ConsoleArgs(m.showBoot);
  }

  const HelperArgv := ["libslirp-helper", "--fd=3", "--exit-with-parent"]

  /** The helper inherits stdio and f1 (socket end 0) as its fourth file. */
  const HelperFiles: seq<FileRef> := [Stdin, Stdout, Stderr, SocketEnd(0)]

  /** The guest inherits stdio and f2 (socket end 1) as its fourth file. */
  const GuestFiles: seq<FileRef> := [Stdin, Stdout, Stderr, SocketEnd(1)]

  function HelperSpawn(paths: Paths): Spawn {
    Spawn(paths.slirpHelperPath, HelperArgv, HelperFiles)
  }

  function GuestSpawn(m: Machine, paths: Paths): Spawn {
    Spawn(paths.kernelPath, Argv(m), GuestFiles)
  }

  /** A return from `Start`: the effects so far, then the deferred calls, last registered first. */
  function Return(done: seq<Event>, deferred: seq<Event>, exitCode: int, err: Option<Error>): RunResult {
    RunResult(done + Reverse(deferred), exitCode, err)
  }

  /** Running the deferred calls releases exactly what was acquired before them. */
  lemma CleanupReleases()
    ensures Replay({Endpoint(0)}, [Closed(0)], true) == Some({})
    ensures Replay({Endpoint(0), Endpoint(1)}, [Closed(1), Closed(0)], true) == Some({})
    ensures Replay({Endpoint(0), Endpoint(1), Running(Helper)}, [Killed(Helper), Closed(1), Closed(0)], true) == Some({})
  {
    var e0, e1, h := Endpoint(0), Endpoint(1), Running(Helper);
    assert Replay({}, [], true) == Some({});
    assert Replay({e0}, [Closed(0)], true) == Some({}) by {
      assert {e0} - {e0} == {};
    }
    assert Replay({e0, e1}, [Closed(1), Closed(0)], true) == Some({}) by {
      assert {e0, e1} - {e1} == {e0};
      assert [Closed(1), Closed(0)][1..] == [Closed(0)];
    }
    assert {e0, e1, h} - {h} == {e0, e1};
    assert [Killed(Helper), Closed(1), Closed(0)][1..] == [Closed(1), Closed(0)];
  }

  /** The effects before the deferred calls acquire the endpoints and the helper, in that order. */
  lemma AcquisitionsReplay(hs: Spawn, gs: Spawn)
    requires hs.files == HelperFiles && gs.files == GuestFiles
    ensures Replay({}, [SocketpairCreated, Wrapped(0)], true) == Some({Endpoint(0)})
    ensures Replay({}, [SocketpairCreated, Wrapped(0), Wrapped(1)], true) == Some({Endpoint(0), Endpoint(1)})
    ensures Replay({}, [SocketpairCreated, Wrapped(0), Wrapped(1), Started(Helper, hs)], true)
      == Some({Endpoint(0), Endpoint(1), Running(Helper)})
    ensures Replay({}, [SocketpairCreated, Wrapped(0), Wrapped(1), Started(Helper, hs), Started(Guest, gs)], true)
      == Some({Endpoint(0), Endpoint(1), Running(Helper)})
    ensures Replay({}, [SocketpairCreated, Wrapped(0), Wrapped(1), Started(Helper, hs), Started(Guest, gs), Waited(Guest)], true)
      == Some({Endpoint(0), Endpoint(1), Running(Helper)})
  {
    var e0, e1, h := Endpoint(0), Endpoint(1), Running(Helper);
    var helper := Started(Helper, hs);
    var guest := Started(Guest, gs);
    var t1 := [SocketpairCreated];
    assert Replay({}, t1, true) == Some({}) by {
      assert t1[1..] == [];
    }
    ReplayExtend({}, t1, Wrapped(0), true);
    var t2 := t1 + [Wrapped(0)];
    assert {} + {e0} == {e0};
    assert Replay({}, t2, true) == Some({e0});
    ReplayExtend({}, t2, Wrapped(1), true);
    var t3 := t2 + [Wrapped(1)];
    assert {e0} + {e1} == {e0, e1};
    assert Replay({}, t3, true) == Some({e0, e1});
    assert EndsOpen({e0, e1}, hs.files);
    ReplayExtend({}, t3, helper, true);
    var t4 := t3 + [helper];
    assert {e0, e1} + {h} == {e0, e1, h};
    assert Replay({}, t4, true) == Some({e0, e1, h});
    assert EndsOpen({e0, e1, h}, gs.files);
    ReplayExtend({}, t4, guest, true);
    var t5 := t4 + [guest];
    ReplayExtend({}, t5, Waited(Guest), true);
    assert t2 == [SocketpairCreated, Wrapped(0)];
    assert t3 == [SocketpairCreated, Wrapped(0), Wrapped(1)];
    assert t4 == [SocketpairCreated, Wrapped(0), Wrapped(1), helper];
    assert t5 == [SocketpairCreated, Wrapped(0), Wrapped(1), helper, guest];
    assert t5 + [Waited(Guest)] == [SocketpairCreated, Wrapped(0), Wrapped(1), helper, guest, Waited(Guest)];
  }

  /**
    The control flow of `Start` for given helper and guest launch requests.
    Each effect either succeeds or ends the run with -1 and the error of the
    first step that failed; a waited guest's exit code is returned. The
    cleanup registered so far runs on every return, last registered first:
    the helper is killed once started, f2 is closed once wrapped, f1 is
    closed once wrapped.
   */
  function Run(hs: Spawn, gs: Spawn, o: Outcomes): (r: RunResult)
    ensures r.err.None? <==> o.socketpair && o.wrapF1 && o.wrapF2 && o.startHelper && o.startGuest && o.wait.Some?
    ensures r.err.None? ==> r.exitCode == o.wait.value
    ensures r.err.Some? ==> r.exitCode == -1
    ensures !o.socketpair ==> r.trace == [] && r.err == Some(SocketpairFailed)
    ensures o.socketpair && !o.wrapF1 ==> r.err == Some(BadDescriptor(1))
    ensures o.socketpair && o.wrapF1 && !o.wrapF2 ==> r.err == Some(BadDescriptor(2))
    ensures o.socketpair && o.wrapF1 && o.wrapF2 && !o.startHelper ==> r.err == Some(StartFailed(hs.path))
    ensures o.socketpair && o.wrapF1 && o.wrapF2 && o.startHelper && !o.startGuest ==> r.err == Some(StartFailed(gs.path))
    ensures o.socketpair && o.wrapF1 && o.wrapF2 && o.startHelper && o.startGuest && o.wait.None? ==>
      r.err == Some(WaitFailed)
    ensures o.socketpair && o.wrapF1 && o.wrapF2 && o.startHelper ==> Started(Helper, hs) in r.trace
    ensures o.socketpair && o.wrapF1 && o.wrapF2 && o.startHelper && o.startGuest ==> Started(Guest, gs) in r.trace
  {
    var helper := Started(Helper, hs);
    var guest := Started(Guest, gs);
    if !o.socketpair then RunResult([], -1, Some(SocketpairFailed))
    else if !o.wrapF1 then Return([SocketpairCreated], [], -1, Some(BadDescriptor(1)))
    else if !o.wrapF2 then Return([SocketpairCreated, Wrapped(0)], [Closed(0)], -1, Some(BadDescriptor(2)))
    else if !o.startHelper then
      Return([SocketpairCreated, Wrapped(0), Wrapped(1)], [Closed(0), Closed(1)], -1, Some(StartFailed(hs.path)))
    else if !o.startGuest then
      Return([SocketpairCreated, Wrapped(0), Wrapped(1), helper], [Closed(0), Closed(1), Killed(Helper)],
             -1, Some(StartFailed(gs.path)))
    else
      match o.wait
      case None =>
        Return([SocketpairCreated, Wrapped(0), Wrapped(1), helper, guest], [Closed(0), Closed(1), Killed(Helper)],
               -1, Some(WaitFailed))
      case Some(code) =>
        Return([SocketpairCreated, Wrapped(0), Wrapped(1), helper, guest, Waited(Guest)],
               [Closed(0), Closed(1), Killed(Helper)], code, None)
  }

  /** `Start`: the run with the slirp helper and the UML kernel as the two launches. */
  function Start(m: Machine, paths: Paths, o: Outcomes): (r: RunResult)
    ensures r.err.None? <==> o.socketpair && o.wrapF1 && o.wrapF2 && o.startHelper && o.startGuest && o.wait.Some?
    ensures r.err.None? ==> r.exitCode == o.wait.value
    ensures r.err.Some? ==> r.exitCode == -1
    ensures !o.socketpair ==> r.trace == [] && r.err == Some(SocketpairFailed)
    ensures o.socketpair && !o.wrapF1 ==> r.err == Some(BadDescriptor(1))
    ensures o.socketpair && o.wrapF1 && !o.wrapF2 ==> r.err == Some(BadDescriptor(2))
    ensures o.socketpair && o.wrapF1 && o.wrapF2 && !o.startHelper ==> r.err == Some(StartFailed(paths.slirpHelperPath))
    ensures o.socketpair && o.wrapF1 && o.wrapF2 && o.startHelper && !o.startGuest ==>
      r.err == Some(StartFailed(paths.kernelPath))
    ensures o.socketpair && o.wrapF1 && o.wrapF2 && o.startHelper && o.startGuest && o.wait.None? ==>
      r.err == Some(WaitFailed)
    ensures o.socketpair && o.wrapF1 && o.wrapF2 && o.startHelper ==> Started(Helper, HelperSpawn(paths)) in r.trace
    ensures o.socketpair && o.wrapF1 && o.wrapF2 && o.startHelper && o.startGuest ==>
      Started(Guest, GuestSpawn(m, paths)) in r.trace
  {
    Run(HelperSpawn(paths), GuestSpawn(m, paths), o)
  }

  /** Cleanup on every return path, for any launches with the helper's and the guest's descriptors. */
  lemma RunIsBalanced(hs: Spawn, gs: Spawn, o: Outcomes)
    requires hs.files == HelperFiles && gs.files == GuestFiles
    ensures Balanced(Run(hs, gs, o).trace, true)
  {
    CleanupReleases();
    AcquisitionsReplay(hs, gs);
    var r := Run(hs, gs, o);
    var helper := Started(Helper, hs);
    var guest := Started(Guest, gs);
    var cleanup := [Killed(Helper), Closed(1), Closed(0)];
    assert Reverse([Closed(0)]) == [Closed(0)];
    assert Reverse([Closed(0), Closed(1)]) == [Closed(1), Closed(0)];
    assert Reverse([Closed(0), Closed(1), Killed(Helper)]) == cleanup;
    if !o.socketpair {
    } else if !o.wrapF1 {
      assert r.trace == [SocketpairCreated];
    } else if !o.wrapF2 {
      ReplayConcat({}, [SocketpairCreated, Wrapped(0)], [Closed(0)], true);
    } else if !o.startHelper {
      ReplayConcat({}, [SocketpairCreated, Wrapped(0), Wrapped(1)], [Closed(1), Closed(0)], true);
    } else if !o.startGuest {
      ReplayConcat({}, [SocketpairCreated, Wrapped(0), Wrapped(1), helper], cleanup, true);
    } else if o.wait.None? {
      ReplayConcat({}, [SocketpairCreated, Wrapped(0), Wrapped(1), helper, guest], cleanup, true);
    } else {
      ReplayConcat({}, [SocketpairCreated, Wrapped(0), Wrapped(1), helper, guest, Waited(Guest)], cleanup, true);
    }
  }

  /**
    Cleanup on every return path of `Start`, under every combination of step
    outcomes: the run releases all it acquired exactly once, each process
    starts with its socket end open, and the guest starts only while the
    helper runs.
   */
  lemma StartIsBalanced(m: Machine, paths: Paths, o: Outcomes)
    ensures Balanced(Start(m, paths, o).trace, true)
  {
    RunIsBalanced(HelperSpawn(paths), GuestSpawn(m, paths), o);
  }

  /** The literal effect sequence of the run for each combination of step outcomes. */
  lemma RunTrace(hs: Spawn, gs: Spawn, o: Outcomes)
    ensures var helper := Started(Helper, hs);
      var guest := Started(Guest, gs);
      var cleanup := [Killed(Helper), Closed(1), Closed(0)];
      Run(hs, gs, o).trace ==
        if !o.socketpair then []
        else if !o.wrapF1 then [SocketpairCreated]
        else if !o.wrapF2 then [SocketpairCreated, Wrapped(0), Closed(0)]
        else if !o.startHelper then [SocketpairCreated, Wrapped(0), Wrapped(1), Closed(1), Closed(0)]
        else if !o.startGuest then [SocketpairCreated, Wrapped(0), Wrapped(1), helper] + cleanup
        else if o.wait.None? then [SocketpairCreated, Wrapped(0), Wrapped(1), helper, guest] + cleanup
        else [SocketpairCreated, Wrapped(0), Wrapped(1), helper, guest, Waited(Guest)] + cleanup
  {
    assert Reverse([Closed(0)]) == [Closed(0)];
    assert Reverse([Closed(0), Closed(1)]) == [Closed(1), Closed(0)];
    assert Reverse([Closed(0), Closed(1), Killed(Helper)]) == [Killed(Helper), Closed(1), Closed(0)];
  }

  /** The run launches only the two requested processes, each as the process it was requested for. */
  lemma RunLaunches(hs: Spawn, gs: Spawn, o: Outcomes)
    ensures forall e :: e in Run(hs, gs, o).trace && e.Started? ==> e.spawn == (if e.proc == Helper then hs else gs)
  {
    RunTrace(hs, gs, o);
  }

  /** Every process `Start` launches is the helper or the guest, each with its fixed argv and descriptors. */
  lemma StartLaunches(m: Machine, paths: Paths, o: Outcomes)
    ensures forall e :: e in Start(m, paths, o).trace && e.Started? ==>
      e.spawn == (if e.proc == Helper then HelperSpawn(paths) else GuestSpawn(m, paths))
  {
    RunLaunches(HelperSpawn(paths), GuestSpawn(m, paths), o);
  }

  /** What the run releases, for any launch requests. */
  lemma RunReleases(hs: Spawn, gs: Spawn, o: Outcomes)
    ensures var r := Run(hs, gs, o);
      && ((o.socketpair && o.wrapF1) <==> Wrapped(0) in r.trace)
      && ((o.socketpair && o.wrapF1) <==> Closed(0) in r.trace)
      && ((o.socketpair && o.wrapF1 && o.wrapF2) <==> Wrapped(1) in r.trace)
      && ((o.socketpair && o.wrapF1 && o.wrapF2) <==> Closed(1) in r.trace)
      && ((o.socketpair && o.wrapF1 && o.wrapF2 && o.startHelper) <==> Started(Helper, hs) in r.trace)
      && ((o.socketpair && o.wrapF1 && o.wrapF2 && o.startHelper) <==> Killed(Helper) in r.trace)
  {
    RunTrace(hs, gs, o);
  }

  /**
    f1 is wrapped, and closed, exactly when the socket pair and its wrap
    succeed; f2 likewise one step later; the helper is killed exactly when it
    was started.
   */
  lemma StartReleases(m: Machine, paths: Paths, o: Outcomes)
    ensures var r := Start(m, paths, o);
      && ((o.socketpair && o.wrapF1) <==> Wrapped(0) in r.trace)
      && ((o.socketpair && o.wrapF1) <==> Closed(0) in r.trace)
      && ((o.socketpair && o.wrapF1 && o.wrapF2) <==> Wrapped(1) in r.trace)
      && ((o.socketpair && o.wrapF1 && o.wrapF2) <==> Closed(1) in r.trace)
      && ((o.socketpair && o.wrapF1 && o.wrapF2 && o.startHelper) <==> Started(Helper, HelperSpawn(paths)) in r.trace)
      && ((o.socketpair && o.wrapF1 && o.wrapF2 && o.startHelper) <==> Killed(Helper) in r.trace)
  {
    RunReleases(HelperSpawn(paths), GuestSpawn(m, paths), o);
  }

  /** The helper is started before the guest on every path that starts the guest. */
  lemma HelperStartsBeforeGuest(m: Machine, paths: Paths, o: Outcomes, j: nat)
    requires j < |Start(m, paths, o).trace|
    requires Start(m, paths, o).trace[j].Started? && Start(m, paths, o).trace[j].proc == Guest
    ensures exists i :: 0 <= i < j && Start(m, paths, o).trace[i] == Started(Helper, HelperSpawn(paths))
  {
    var t := Start(m, paths, o).trace;
    StartIsBalanced(m, paths, o);
    GuestAfterHelper({}, t, j);
    var i :| 0 <= i < j && t[i].Started? && t[i].proc == Helper;
    StartLaunches(m, paths, o);
    assert t[i] in t;
  }

  /**
    The image-path prediction is right exactly when the image's index is its
    position: image `i` is attached as block device `ubd<i>`, and the
    prediction names the guest's device `i` if and only if the index is `i`.
   */
  lemma ImagePathMatchesLaunch(m: Machine, i: nat)
    requires i < |m.images|
    ensures UbdAt(m) + i < |Argv(m)|
    ensures Argv(m)[UbdAt(m) + i] == "ubd" + NatToString(i) + "=" + m.images[i].path
    ensures MachineImagePath(m.images[i]) == GuestUbdPath(i) <==> m.images[i].index == i
  {
    ArgvLayout(m);
    var img := m.images[i];
    if MachineImagePath(img) == GuestUbdPath(i) {
      assert MachineImagePath(img)[|DiskByPathPrefix|..] == IntToString(img.index);
      assert GuestUbdPath(i)[|DiskByPathPrefix|..] == NatToString(i) == IntToString(i);
      IntToStringInjective(img.index, i);
    }
  }

  /** The terminal joined to the supervisor's stdio: 0 when showing boot, else 1. */
  function StdioTerminal(showBoot: bool): string {
    if showBoot then "0" else "1"
  }

  lemma ConsoleArgsWireStdio(showBoot: bool)
    ensures "con" + StdioTerminal(showBoot) + "=fd:0,fd:1" in ConsoleArgs(showBoot)
    ensures "con=none" in ConsoleArgs(showBoot)
    ensures !showBoot ==> "quiet" in ConsoleArgs(showBoot) && "con0=null" in ConsoleArgs(showBoot)
    ensures forall a :: a in ConsoleArgs(showBoot) && EndsWith(a, "=fd:0,fd:1") ==>
      a == "con" + StdioTerminal(showBoot) + "=fd:0,fd:1"
  {
    if showBoot {
      assert "con" + "0" + "=fd:0,fd:1" == "con0=fd:0,fd:1";
      assert ConsoleArgs(showBoot)[0] == "con0=fd:0,fd:1";
    } else {
      assert "con" + "1" + "=fd:0,fd:1" == "con1=fd:0,fd:1";
      assert ConsoleArgs(showBoot)[1] == "con1=fd:0,fd:1";
    }
  }

  /**
    Console wiring agrees with the job-output device: the terminal connected
    to the supervisor's stdio is the one jobs write to. `ArgvLayout` places
    these arguments right after the fixed prefix.
   */
  lemma ConsoleMatchesJobOutput(m: Machine)
    ensures "con" + StdioTerminal(m.showBoot) + "=fd:0,fd:1" in ConsoleArgs(m.showBoot)
    ensures JobOutputTTY(m) == "/dev/tty" + StdioTerminal(m.showBoot)
  {
    ConsoleArgsWireStdio(m.showBoot);
    if m.showBoot {
      assert "/dev/tty" + "0" == "/dev/tty0";
    } else {
      assert "/dev/tty" + "1" == "/dev/tty1";
    }
  }

  /**
    Descriptor numbers agree: the helper is told `--fd=n` and receives f1
    (socket end 0) at index n; the guest's network argument names `fd=n` and
    it receives f2 (socket end 1) at index n; the two are opposite ends of
    one pair.
   */
  lemma DescriptorsAgree(m: Machine, paths: Paths)
    ensures var h := HelperSpawn(paths); var g := GuestSpawn(m, paths); var n := 3;
      && n < |h.files| && h.files[n] == SocketEnd(0) && h.argv[1] == "--fd=" + NatToString(n)
      && n < |g.files| && g.files[n] == SocketEnd(1) && g.argv[7] == "vec0:transport=fd,fd=" + NatToString(n) + ",vec=0"
      && h.files[n] != g.files[n]
  {
    ArgvLayout(m);
    assert Argv(m)[7] == Argv(m)[..8][7] == VecArg;
  }

  /**
    The networkd glob covers the interface the guest's network argument
    creates, `vec0`, and with it every name beginning `vec`.
   */
  lemma NetworkMatchCoversGuestInterface(m: Machine, name: string)
    ensures GlobMatch(NetworkdMatch(), name) <==> StartsWith(name, "vec")
    ensures StartsWith(Argv(m)[7], "vec0:") && GlobMatch(NetworkdMatch(), "vec0")
  {
    assert StartsWith("vec0", "vec");
    ArgvLayout(m);
    assert Argv(m)[7] == Argv(m)[..8][7] == VecArg;
  }

  /** The guest kernel reads back the configured memory size (in MiB) and initrd. */
  lemma ArgvCarriesConfiguration(m: Machine)
    ensures var r := Argv(m); var mem := r[1];
      && StartsWith(mem, "mem=") && EndsWith(mem, "M")
      && ParseInt(mem[4..|mem| - 1]) == Some(m.memory)
      && r[2] == "initrd=" + m.initrdPath
  {
    ArgvLayout(m);
    var r := Argv(m);
    assert r[1] == r[..8][1] == "mem=" + IntToString(m.memory) + "M";
    assert r[2] == r[..8][2];
    assert r[1][4..|r[1]| - 1] == IntToString(m.memory);
    ParseIntToString(m.memory);
  }

  /**
    The module tree the backend reports is the one it mounts over the
    guest's `/lib/modules`, and the hostfs mount of that volume names it.
   */
  lemma ModuleTreeIsMounted(m: Machine, paths: Paths, host: Host)
    requires KernelModulesDir(paths, host).Ok?
    ensures var v := StaticVolumes(m, paths);
      v[|v| - 1].hostDirectory == KernelModulesDir(paths, host).value && v[|v| - 1].machineDirectory == "/lib/modules"
    ensures var v := StaticVolumes(m, paths);
      MountParameters(v[|v| - 1]) == ("hostfs", [KernelModulesDir(paths, host).value])
  {
  }
}
